=== FILE: README.md ===
# Local Spatial ID: a Dafny model

This project models the core of `local-spatial-id-js-sdk`. The SDK addresses a local,
metre-based space as a cube of tiles `{z, f, x, y}`:

- zoom `z` splits each axis of the root cube into `2^z` tiles;
- `x`, `y` and `f` (the vertical axis) index one tile.

The model covers five parts:

- **The local quantizer** (`tile2meters`, `pointToLocalTileFraction`, `pointToLocalTile`,
  `bboxToLocalTile`, `calculateLocalZFXY`). It turns metres into tile indices at a zoom,
  throwing or clamping when a point lies outside the root cube. For a box, it quantizes
  both corners to 32-bit integers and keeps the longest common bit prefix.
- **The global tilebelt bit logic** (`getBboxZoom`, `bboxToTile`, `xyfzTileAryToObj`,
  and the x wrap of `pointToTileFraction`).
- **`LocalSpatialId` in both revisions.**
  - The shared part: the constructor's input dispatch, moves, children, `contains`
    between cells, and the regenerated `id`/`tilehash`/`zfxyStr`.
  - The demo revision: the origin sits at the top-left of the root tile, and the
    vertical extent comes from `scale_height`.
  - The package revision: the origin sits at the centre of the root tile.
- **`LocalNamespace`**: the constructor's origin and georeferencer rules, `space`,
  `boundingSpaceFromGeoJSON` and `spacesFromGeoJSON`.
- **The demo `hashCode`**, a 32-bit polynomial string hash.

How the model represents things:

- Metre and degree values are `real`.
- The 32-bit corners are unbounded integers, read through explicit `ToUint32`, `ToInt32`
  and unsigned-shift functions (module `Bits`).
- Every JavaScript exception becomes an `Err` of a `Result` (module `Failures`).
- The collaborators the core calls but does not define are function values passed in as
  parameters (module `Externals`), so every property holds whatever they compute,
  except where a lemma names a hypothesis about one of them (listed under "## Left out"):
  - the geodesic georeferencer;
  - turf;
  - the `zfxy` / `zfxy_tilehash` helpers;
  - the global Spatial ID SDK.

Modules and source files:

| module | source |
|---|---|
| `Bits` | ECMAScript `ToUint32`, `ToInt32`, `>>>` |
| `Tilebelt` | src/lib/tilebelt.ts |
| `TilebeltLocal` | demo/src/local-spatial-id-js-sdk/lib/tilebelt_local.ts, src/lib/tilebelt_local.ts |
| `Namespaces`, `NamespaceOps` | src/local_namespace.ts |
| `ZfxyString` | the `/z/f/x/y` string of `_regenerateAttributesFromZFXY` |
| `Cells` | what both `local_spatial_id.ts` revisions share |
| `DemoCells` | demo/src/local-spatial-id-js-sdk/local_spatial_id.ts |
| `PackageCells` | src/local_spatial_id.ts |
| `Tools` | demo/src/tools.ts |

## Model

| member | source | states |
|---|---|---|
| TilebeltLocal.Tile2Meters | src/lib/tilebelt_local.ts:5-7 | the length of a tile times `2^z` gives back the scale |
| TilebeltLocal.Tile2MetersAtRoot | demo/src/local-spatial-id-js-sdk/lib/tilebelt_local.ts:12-14 | at zoom 0 a tile is the whole scale |
| TilebeltLocal.Tile2MetersHalves | src/lib/tilebelt_local.ts:5-7 | each zoom step halves the tile length |
| TilebeltLocal.Tile2MetersExamples | src/lib/tilebelt_local.test.ts:9-13 | (1,0)→1, (1,1)→0.5, (1,10)→1/1024, (1024,10)→1 |
| TilebeltLocal.ScaledInRange | demo/src/local-spatial-id-js-sdk/lib/tilebelt_local.ts:97-106 | the zoom-z coordinate is in `[0, 2^z)` exactly when the metre value lies in the root edge |
| TilebeltLocal.PointToLocalTileFraction | demo/src/local-spatial-id-js-sdk/lib/tilebelt_local.ts:88-118 | without clamp: fails with OutOfBounds iff the point leaves the root cube, else returns `2^z*m/scale` per axis. With clamp: never fails and each value is the clamped coordinate in `[0, 2^z-1]`. z is echoed |
| TilebeltLocal.ClampKeepsInRange | demo/src/local-spatial-id-js-sdk/lib/tilebelt_local.ts:111-116 | clamping leaves a value already in range unchanged |
| TilebeltLocal.PointToLocalTile | demo/src/local-spatial-id-js-sdk/lib/tilebelt_local.ts:66-72 | the floors of the fraction, each index in `[0, 2^z)`, z unchanged, same error condition |
| TilebeltLocal.PointLiesInItsCell | demo/src/local-spatial-id-js-sdk/lib/tilebelt_local.ts:66-118 | a quantized point lies in the metre footprint of its tile |
| TilebeltLocal.QuantizeIffInFootprint | demo/src/local-spatial-id-js-sdk/lib/tilebelt_local.ts:66-118 | unclamped, a point quantizes to a tile iff it lies in that tile's footprint |
| TilebeltLocal.ClampIrrelevantInRoot | demo/src/local-spatial-id-js-sdk/lib/tilebelt_local.ts:104-116 | inside the root cube, the clamped and unclamped tiles coincide |
| TilebeltLocal.AxisShift | demo/src/local-spatial-id-js-sdk/lib/tilebelt_local.ts:20-29 | an index at zoom z is the zoom-32 index shifted right by `32 - z`, with and without clamping |
| TilebeltLocal.BboxToLocalTile | demo/src/local-spatial-id-js-sdk/lib/tilebelt_local.ts:19-30 | fails only unclamped with a corner outside the root. z ≤ 28 and z ≤ minZoom. z = 0 gives the root. Otherwise the indices are in `[0, 2^z)` |
| TilebeltLocal.CornerTilesAt | demo/src/local-spatial-id-js-sdk/lib/tilebelt_local.ts:19-29 | the two corners share a tile at zoom z iff their zoom-32 indices share the top z bits |
| TilebeltLocal.BboxTileHoldsCorners | demo/src/local-spatial-id-js-sdk/lib/tilebelt_local.ts:19-30 | both corners quantize, at the result zoom, to the result tile |
| TilebeltLocal.BboxTileIsSmallest | demo/src/local-spatial-id-js-sdk/lib/tilebelt_local.ts:19-30 | unless capped, one zoom deeper the corners fall in different tiles |
| TilebeltLocal.InputBox | demo/src/local-spatial-id-js-sdk/lib/tilebelt_local.ts:35-40 | a box input is kept as it is; a point `{x, y, alt}` becomes the box whose two corners are both that point |
| TilebeltLocal.CalculateLocalZFXY | demo/src/local-spatial-id-js-sdk/lib/tilebelt_local.ts:33-43 | a point is a degenerate box. The zoom is ≤ the requested zoom and ≤ 28, and for a point it is exactly `min(zoom, 28)` |
| TilebeltLocal.PointCellIsPointTile | demo/src/local-spatial-id-js-sdk/lib/tilebelt_local.ts:33-43 | a point's cell is the tile that holds the point at `min(zoom, 28)` |
| TilebeltLocal.QuantizerExamples | src/lib/tilebelt_local.test.ts:89-114 | 511 m at z=11 → 1022; at z=9 → 255.5; clamped 1100 m → 0; unclamped 1100 m → error |
| TilebeltLocal.OriginIsCornerTile | src/lib/tilebelt_local.test.ts:28-48 | the origin quantizes to `{z, 0, 0, 0}` at every zoom up to 28 |
| Tilebelt.XyfzTileAryToObj | src/lib/tilebelt.ts:13-15 | the object has the same x, y, f and z as the array |
| Tilebelt.AryObjRoundTrip | src/lib/tilebelt.ts:13-15 | `xyfzTileAryToObj` alters no field: array→object→array and object→array→object are identities |
| Tilebelt.BboxZoom | src/lib/tilebelt.ts:21-34 | a zoom in `[0, 28]`. No axis diverges below it, and below 28 some axis diverges at it |
| Tilebelt.GetBboxZoom | src/lib/tilebelt.ts:21-34 | the loop returns a zoom in `[0, 28]`. Below it no axis diverges, and below 28 some axis diverges at it |
| Tilebelt.BboxZoomIsDeepestCover | src/lib/tilebelt.ts:21-34 | the corners share a tile at zoom z iff z ≤ `getBboxZoom` |
| Tilebelt.IdenticalCornersGiveMax | src/lib/tilebelt.ts:21-34 | identical corners give 28 |
| Tilebelt.TileFromCorners | src/lib/tilebelt.ts:44-49 | z ≤ 28 and z ≤ minZoom, and z is either `getBboxZoom` or minZoom. z = 0 gives the root. For z > 0 the indices are below `2^z` and the tile holds both corners |
| Tilebelt.TileFromCornersIsSmallest | src/lib/tilebelt.ts:43-49 | unless capped by 28 or by minZoom, the chosen zoom is `getBboxZoom` and one level deeper the corners fall in different tiles |
| Tilebelt.WrapTileX | src/lib/tilebelt.ts:73-75 | x is wrapped into `[0, 2^z)`, differs from the raw value by a multiple of `2^z`, and is unchanged when already in range |
| Tilebelt.PointToTileFraction | src/lib/tilebelt.ts:66-77 | z is echoed. x is the wrapped longitude fraction, in `[0, 2^z)`. y and f are the projection's values |
| Tilebelt.PointToTile | src/lib/tilebelt.ts:55-61 | z is echoed. x, y and f are the floors of the fraction's values, with x in `[0, 2^z)` |
| Tilebelt.BboxToTile | src/lib/tilebelt.ts:39-50 | z is `min(getBboxZoom, minZoom ?? 28)` of the zoom-32 corners. z = 0 gives `[0,0,0,0]`. Otherwise x, y and f are each the min corner's zoom-32 index `>>> (32 - z)`; for z > 0 they are below `2^z` and the tile holds both corners |
| Tilebelt.BboxToTileIsSmallest | src/lib/tilebelt.ts:39-50 | unless capped by 28 or by minZoom, the zoom is `getBboxZoom` and one level deeper the corners fall in different tiles |
| Namespaces.NewNamespace | src/local_namespace.ts:47-65 | an id is kept verbatim, else the uuid is used. Scale is stored. An origin exists iff latitude and longitude are both truthy, with altitude and angle defaulting to 0. The georeferencer exists iff the origin does, built from (longitude, latitude, angle) |
| Namespaces.ZeroLatitudeLeavesNoOrigin | src/local_namespace.ts:52 | a latitude or longitude of exactly 0 leaves the namespace unanchored |
| Namespaces.EmptyIdIsKept | src/local_namespace.ts:48 | `??` keeps an empty id |
| Namespaces.NamespaceExamples | src/local_namespace.test.ts:8-22 | the scale-only namespace and the (35, 135) origin namespace |
| ZfxyString.ZfxyStr | src/local_spatial_id.ts:189 | the string starts with `/` and has at least 8 characters; what it encodes is stated by ZfxyStrRoundTrip |
| ZfxyString.ZfxyStrRoundTrip | src/local_spatial_id.ts:187-190 | the `/z/f/x/y` string decodes back to the tile |
| ZfxyString.ZfxyStrInjective | src/local_spatial_id.ts:187-190 | distinct tiles have distinct strings |
| ZfxyString.RootZfxyStr | src/local_spatial_id.test.ts:12-13 | the root tile's string is `/0/0/0/0` |
| Cells.MakeCell | demo/src/local-spatial-id-js-sdk/local_spatial_id.ts:245-248 | id and tilehash are the generated tilehash; zfxyStr decodes to the tile |
| Cells.RegeneratedCellsEqual | demo/src/local-spatial-id-js-sdk/local_spatial_id.ts:245-248 | regenerated cells are equal iff namespace and tile are |
| Cells.ParseCellText | demo/src/local-spatial-id-js-sdk/local_spatial_id.ts:43 | the canonical parse first, the tilehash parse only when it fails |
| Cells.NewCell | demo/src/local-spatial-id-js-sdk/local_spatial_id.ts:39-62 | a string fails with ParseFailure iff neither parse succeeds. A tile is kept. A point or box is quantized with clamping at the given zoom (default 25) and never fails; a point gets `min(zoom, 28)`. The attributes are regenerated |
| Cells.PointCellHoldsPoint | demo/src/local-spatial-id-js-sdk/local_spatial_id.ts:51-58 | the cell made from a point of the root cube has a footprint holding the point |
| Cells.Move | demo/src/local-spatial-id-js-sdk/local_spatial_id.ts:90-100 | keeps the namespace and z, adds the deltas to f, x, y, wraps, regenerates |
| Cells.Up | demo/src/local-spatial-id-js-sdk/local_spatial_id.ts:66-68 | adds `by` to f only |
| Cells.Down | demo/src/local-spatial-id-js-sdk/local_spatial_id.ts:70-72 | subtracts `by` from f only |
| Cells.North | demo/src/local-spatial-id-js-sdk/local_spatial_id.ts:74-76 | adds `by` to y only |
| Cells.South | demo/src/local-spatial-id-js-sdk/local_spatial_id.ts:78-80 | subtracts `by` from y only |
| Cells.East | demo/src/local-spatial-id-js-sdk/local_spatial_id.ts:82-84 | adds `by` to x only |
| Cells.West | demo/src/local-spatial-id-js-sdk/local_spatial_id.ts:86-88 | subtracts `by` from x only |
| Cells.MoveInRange | src/local_spatial_id.ts:78-88 | a move that stays in range keeps z and steps each axis by exactly its delta |
| Cells.UpThenDown | src/local_spatial_id.ts:54-60 | `down(by)` undoes `up(by)` in range |
| Cells.EastThenWest | src/local_spatial_id.ts:70-76 | `west(by)` undoes `east(by)` in range |
| Cells.NorthThenSouth | src/local_spatial_id.ts:62-68 | `south(by)` undoes `north(by)` in range |
| Cells.ChildrenAtZoom | demo/src/local-spatial-id-js-sdk/local_spatial_id.ts:114-116 | one regenerated cell per listed tile, in order, in the same namespace |
| Cells.Children | demo/src/local-spatial-id-js-sdk/local_spatial_id.ts:110-112 | exactly `childrenAtZoom(z + 1)`: one regenerated cell per tile the library lists at `z + 1`, in order |
| Cells.StartsWith | demo/src/local-spatial-id-js-sdk/local_spatial_id.ts:124 | `startsWith` is the sequence-prefix relation |
| Cells.ContainsCell | demo/src/local-spatial-id-js-sdk/local_spatial_id.ts:119-125 | true iff the ids do not clash (one empty or both equal) and this tilehash prefixes the other |
| Cells.ContainsReflexive | src/local_spatial_id.ts:104-110 | every cell contains itself |
| Cells.ContainsTransitive | src/local_spatial_id.ts:104-110 | within one namespace id, containment is transitive |
| Cells.ContainsNotTransitiveThroughAnonymous | src/local_spatial_id.ts:105 | through a namespace with an empty id, containment is not transitive |
| DemoCells.Parent | demo/src/local-spatial-id-js-sdk/local_spatial_id.ts:102-108 | fails with InvalidNavigation iff `atZoom > z`. Otherwise it takes one step by default or `z - atZoom` steps |
| DemoCells.ParentDefaultIsOneUp | demo/src/local-spatial-id-js-sdk/local_spatial_id.ts:103 | `parent()` equals `parent(z - 1)` |
| DemoCells.LocalCorners | demo/src/local-spatial-id-js-sdk/local_spatial_id.ts:191-204 | corners `x*m`, `-(y*m)`, one tile length `m = tile2meters(scale, z)` apart on both axes |
| DemoCells.ToGeoJSON | demo/src/local-spatial-id-js-sdk/local_spatial_id.ts:186-221 | fails with ConversionNotPossible iff there is no georeferencer. Otherwise a Polygon with one ring: the four corners transformed, closed |
| DemoCells.RingIsClosed | demo/src/local-spatial-id-js-sdk/local_spatial_id.ts:213-219 | the ring has 5 points and its first equals its last |
| DemoCells.FootprintIsQuantizerCell | demo/src/local-spatial-id-js-sdk/local_spatial_id.ts:200-204 | with y flipped, a point lies inside the corners and band iff the quantizer sends it to this cell |
| DemoCells.Contains | demo/src/local-spatial-id-js-sdk/local_spatial_id.ts:118-136 | a cell target is the id and tilehash test. For a geometry: ConversionNotPossible without a georeferencer, then UnsupportedGeometry for a collection, else turf's verdict on the footprint |
| DemoCells.Intersects | demo/src/local-spatial-id-js-sdk/local_spatial_id.ts:138-152 | NotImplemented for a cell target; for a geometry, the same error order as `contains` and turf's intersection verdict |
| DemoCells.ToWGS84BBox2D | demo/src/local-spatial-id-js-sdk/local_spatial_id.ts:238-243 | turf's bounding box of the footprint, ConversionNotPossible without a georeferencer |
| DemoCells.VerticalBand | demo/src/local-spatial-id-js-sdk/local_spatial_id.ts:226-230 | the band is one vertical tile `tile2meters(scale_height, z)` high |
| DemoCells.ToWGS84BBox | demo/src/local-spatial-id-js-sdk/local_spatial_id.ts:223-236 | the 2D box with altitudes `alt + f*h` and `alt + (f+1)*h`. ConversionNotPossible without a georeferencer, TypeError without an origin |
| DemoCells.AnchoredBBoxErrors | src/local_namespace.ts:52-64 | a constructed namespace never reaches the TypeError |
| DemoCells.BandNests | demo/src/local-spatial-id-js-sdk/local_spatial_id.ts:226-230 | a vertical child's band lies inside its parent's |
| DemoCells.BandsTile | demo/src/local-spatial-id-js-sdk/local_spatial_id.ts:229-230 | consecutive bands meet |
| DemoCells.GlobalTile | demo/src/local-spatial-id-js-sdk/local_spatial_id.ts:160-161 | z is `getBboxZoom` of the zoom-32 corners, at most 28. z = 0 gives the root. Otherwise x, y and f are the min corner's zoom-32 index `>>> (32 - z)` |
| DemoCells.ToContainingGlobalSpatialId | demo/src/local-spatial-id-js-sdk/local_spatial_id.ts:154-162 | the global space of `bboxToTile` of the WGS84 box, its altitudes zeroed under `ignoreF`; fails as the box does |
| DemoCells.IgnoreFIsColumnwise | demo/src/local-spatial-id-js-sdk/local_spatial_id.ts:156-159 | under `ignoreF`, the cells of one column give the same global space |
| DemoCells.ToGlobalSpatialIds | demo/src/local-spatial-id-js-sdk/local_spatial_id.ts:164-184 | a space is kept iff it comes from a descendant of the containing tile, meets the footprint, and its altitude range overlaps `[bbox[2], bbox[5]]`. A kept space occurs as often as among the descendants' spaces, a dropped one not at all |
| DemoCells.GlobalIdsAllKept | demo/src/local-spatial-id-js-sdk/local_spatial_id.ts:171-182 | when every descendant's space passes the filter, the result is all of them, one per tile, in `getChildrenAtZoom` order |
| PackageCells.Parent | src/local_spatial_id.ts:90-93 | one step by default, else `z - atZoom` steps, with no check |
| PackageCells.ParentAgreesWithDemo | src/local_spatial_id.ts:90-93 | the two revisions agree exactly when `atZoom` is absent or not deeper than z |
| PackageCells.CentredCorners | src/local_spatial_id.ts:159-166 | the centred corners are one tile length `tile2meters(scale, z)` apart on x and on y |
| PackageCells.CentredIsShifted | src/local_spatial_id.ts:162-166 | the package corners are the demo corners moved by `scale/2` |
| PackageCells.RootCentred | src/local_spatial_id.ts:162-166 | the root tile spans `[-scale/2, scale/2]` on both axes |
| PackageCells.CentredCornersInRoot | src/local_spatial_id.ts:159-166 | every tile of the root cube has its corners within `[-scale/2, scale/2]` |
| PackageCells.PlanarBox | src/local_spatial_id.ts:167-174 | the planar entries are `[p0.x, p1.y, p1.x, p0.y]`, where p0 and p1 are the georeferenced top-left and bottom-right centred corners |
| PackageCells.ToWGS84BBox | src/local_spatial_id.ts:154-175 | as written: ConversionNotPossible iff there is no georeferencer. Otherwise the planar entries are `[p0.x, p1.y, p1.x, p0.y]` of the georeferenced centred corners, and the altitudes are `f*scale` and `(f+1)*scale`, a band `scale` high at every zoom |
| PackageCells.AsWrittenCounterexample | src/local_spatial_id.ts:169-170 | as written, `/1/1/0/0` gets `[1, 2]` while its parent `/0/0/0/0` gets `[0, 1]` |
| PackageCells.AsWrittenChildEscapes | src/local_spatial_id.ts:169-170 | as written, the upper vertical child reaches above its parent |
| PackageCells.ToWGS84BBoxCorrected | src/local_spatial_id.ts:154-175 | the corrected box: the same error and planar entries, with altitudes `f*m` and `(f+1)*m`, `m = tile2meters(scale, z)` |
| PackageCells.BBoxVersionsAgree | src/local_spatial_id.ts:167-174 | the two versions differ only in the altitudes and coincide at zoom 0 |
| PackageCells.CorrectedChildNests | src/local_spatial_id.ts:169-170 | corrected, a vertical child's band lies inside its parent's |
| PackageCells.ToWGS84BBox2D | src/local_spatial_id.ts:177-180 | drops exactly entries 2 and 5 of the box as written; the result is the same for the corrected box |
| PackageCells.BBox2DIgnoresF | src/local_spatial_id.ts:177-180 | the plan box does not depend on f |
| PackageCells.ToGeoJSON | src/local_spatial_id.ts:182-185 | the polygon of the plan box |
| PackageCells.Contains | src/local_spatial_id.ts:103-121 | the id and tilehash test for a cell. For a geometry: ConversionNotPossible, then UnsupportedGeometry, then turf on the box polygon |
| PackageCells.Intersects | src/local_spatial_id.ts:123-139 | NotImplemented for a cell; for a geometry, the same error order and turf's intersection verdict |
| PackageCells.CellQueriesAgreeWithDemo | src/local_spatial_id.ts:103-125 | between cells, both revisions answer alike |
| PackageCells.ToContainingGlobalSpatialId | src/local_spatial_id.ts:141-145 | the global space of `bboxToTile` of the WGS84 box as written, altitudes `f*scale` and `(f+1)*scale` included; ConversionNotPossible iff there is no georeferencer |
| PackageCells.ToGlobalSpatialIds | src/local_spatial_id.ts:147-152 | one space per descendant, at `zoom`, of the tile of the box as written, in order and unfiltered |
| PackageCells.GlobalIdsUnderContaining | src/local_spatial_id.ts:141-152 | both calls fail together; otherwise one tile gives both the containing space and, at any zoom, the list of its descendants' spaces |
| PackageCells.GlobalIdsAtOwnZoom | src/local_spatial_id.ts:141-152 | IF `getChildrenAtZoom` returns the containing tile alone at its own zoom, then the list at that zoom is exactly the containing space |
| PackageCells.ToContainingGlobalSpatialIdCorrected | src/local_spatial_id.ts:141-145 | the same call over the corrected box |
| PackageCells.ToGlobalSpatialIdsCorrected | src/local_spatial_id.ts:147-152 | the same call over the corrected box |
| PackageCells.GlobalIdsAgreeAtRoot | src/local_spatial_id.ts:141-152 | on a zoom-0 cell, the corrected global ids equal those as written |
| NamespaceOps.Space | src/local_namespace.ts:67-69 | a cell of this namespace at the default zoom; a point gets zoom 25 |
| NamespaceOps.SpaceFromOwnString | src/local_namespace.ts:67-69 | a regenerated cell is rebuilt from its own `/z/f/x/y` string, PROVIDED `parseZFXYString` reads that string as the model's decoder does |
| NamespaceOps.LocalBox | src/local_namespace.ts:92-95 | `[nw.x, -nw.y, 0, se.x, -se.y, 0]`: y flipped, zero altitude |
| NamespaceOps.BoundingSpaceFromGeoJSON | src/local_namespace.ts:84-99 | ConversionNotPossible iff there is no georeferencer; otherwise the clamped cell of the local box at zoom ≤ 25 |
| NamespaceOps.BoundingSpaceIsGroundLevel | src/local_namespace.ts:95-98 | the bounding cell is in the bottom vertical layer |
| NamespaceOps.CoveringSpaces | src/local_namespace.ts:79 | one cell of the namespace per tile `getChildrenAtZoom` lists under the bounding cell, in order |
| NamespaceOps.SpacesFromGeoJSON | src/local_namespace.ts:71-82 | ConversionNotPossible without an origin. A collection fails iff there is a covering cell. Otherwise a covering cell at `zoom` is kept iff its `intersects` holds, and then as often as it occurs among the covering cells |
| NamespaceOps.SpacesKeepAllInOrder | src/local_namespace.ts:77-81 | when turf finds every covering cell meeting the geometry, the result is the covering cells themselves, in order |
| NamespaceOps.SpacesAreTheIntersectingCells | src/local_namespace.ts:77-81 | in an anchored namespace, for a non-collection, a covering cell is kept iff turf finds its box polygon meeting the geometry |
| Tools.Imul | demo/src/tools.ts:4 | `Math.imul`: a signed 32-bit value congruent to the product |
| Tools.Step | demo/src/tools.ts:4 | one loop step is a signed 32-bit value congruent to `31*h + c` |
| Tools.HashCode | demo/src/tools.ts:1-6 | the unsigned result `h >>> 0` is below `2^32`; its value is stated by HashCodeIsWeightedSum |
| Tools.HashCodeIsWeightedSum | demo/src/tools.ts:1-6 | `hashCode(s) = Σ s[i]*31^(n-1-i) mod 2^32` |
| Tools.HashCodeAppend | demo/src/tools.ts:3-5 | `hashCode(s + c) = (31*hashCode(s) + c) mod 2^32` |
| Tools.HashCodeSingle | demo/src/tools.ts:3-5 | a single code unit hashes to itself |
| Tools.HashCodeWithoutWrap | demo/src/tools.ts:1-6 | a polynomial below `2^32` is the hash itself |
| Tools.HashCodeExamples | demo/src/tools.ts:1-6 | `""` → 0, `"a"` → 97, `"ab"` → 3105 |
| Tools.ComputeHashCode | demo/src/tools.ts:1-6 | the loop returns the polynomial modulo `2^32`, in `[0, 2^32)` |

## Left out

- IEEE floating point: metres are exact reals, so rounding, `Infinity` and `NaN` are not modelled. The quantizer therefore requires non-zero scales. A zero scale, which JavaScript turns into `Infinity`/`NaN` tiles, is outside the model.
- The geodesic georeferencer (src/lib/georeference.ts): a pair of arbitrary functions. No round-trip between `transform` and `transformInverse` is claimed.
- turf (`bbox`, `bboxPolygon`, `booleanContains`, `booleanIntersects`): arbitrary functions.
- The `zfxy` and `zfxy_tilehash` helpers (`parseZFXYString`, `parseZFXYTilehash`, `generateTilehash`, `zfxyWraparound`, `getParent`, `getChildrenAtZoom`): arbitrary functions, because their source is not part of this model. The move inverses assume only that wraparound keeps an in-range tile.
- PackageCells.GlobalIdsAtOwnZoom: holds only if `getChildrenAtZoom(t.z, t)` returns `[t]` for the containing tile `t`. The helper's source is not part of this model, so that hypothesis is stated in the ensures, not proved. `PackageCells.GlobalIdsUnderContaining` needs no hypothesis.
- NamespaceOps.SpaceFromOwnString: holds only if `parseZFXYString` reads the cell's own `/z/f/x/y` string as the model's decoder `DecodeZfxyStr` does. The parser's source is not part of this model, so that hypothesis is a precondition, not proved.
- The global `SpatialId.Space`: only its tile, footprint and altitude range.
- `pointToTileFraction`'s Web-Mercator y and its altitude f (src/lib/tilebelt.ts:67-71): a parameter, because they are floating trigonometry and use a constant from a file that is not part of this model. Its x wrap is modelled.
- `crypto.randomUUID`: a `uuid` parameter of the namespace constructor.
- `console.log` in the package `intersects`: output only.
- demo/src/App.tsx, rollup.config.mjs and errors.ts: UI, build, and an error class. Error classes become the `Error` datatype.
- The `maxzoom` option of the demo `toContainingGlobalSpatialId`: the code never reads it.
- PackageCells.Parent: the zfxy helpers are modelled as total functions that never throw. So `parent(atZoom)` with `atZoom > z`, which hands `getParent` a negative step count, always returns a cell here, whatever the helper would do with that count. The same holds for `getChildrenAtZoom` and `zfxyWraparound` everywhere they are called.
- Default arguments `by = 1` of the moves: callers pass the step.
- The point and box branch of the package constructor (src/local_spatial_id.ts:41-46): it calls `calculateLocalZFXY` with a signature that src/lib/tilebelt_local.ts does not provide. Both revisions share the demo constructor's clamped quantizer, with the vertical scale taken from the model's `scaleHeight` field, which `NewNamespace` sets equal to `scale`.
- The package `LocalNamespace` has no `scale_height` (src/local_namespace.ts:38-45). The model's `Namespace` carries a `scaleHeight` field anyway, and `NewNamespace` sets it to `scale`. The demo namespace, from which the demo cells read `scale_height`, is not part of this model. Demo cells here see whatever `scaleHeight` their namespace value holds.
- TilebeltLocal.CalculateLocalZFXY: the zoom is taken as an integer. A fractional zoom from JavaScript is not modelled.
- NamespaceOps.GroundBoxFloor: stated for non-negative zooms only. A negative zoom from JavaScript is not modelled.
- Tools: strings are sequences of UTF-16 code units (`charCodeAt`). Dafny characters are not used, since they are Unicode scalar values.

## Findings

| source | as written | input that shows it | evidently intended | confidence | as-written member | corrected member |
|---|---|---|---|---|---|---|
| src/local_spatial_id.ts:169-170 | the vertical bounds of `toWGS84BBox` are `f*scale` and `(f+1)*scale`, the same height at every zoom | scale 1: cell `/1/1/0/0` gets altitudes `[1, 2]`, outside its parent `/0/0/0/0` at `[0, 1]` | `f*m` and `(f+1)*m` with `m = tile2meters(scale, z)`, as for x and y and as the demo does with `scale_height` | not executed; the horizontal axes and the demo revision both scale by zoom | PackageCells.AsWrittenCounterexample | PackageCells.CorrectedChildNests |

The package's own operations keep the box as written: `ToWGS84BBox`, `ToWGS84BBox2D`, `ToGeoJSON`,
`Contains`, `Intersects`, `ToContainingGlobalSpatialId` and `ToGlobalSpatialIds`. The planar entries
are the same in both versions, so only the two global-id operations see the difference. Their
intended counterparts are `ToWGS84BBoxCorrected`, `ToContainingGlobalSpatialIdCorrected` and
`ToGlobalSpatialIdsCorrected`.

=== FILE: bits.dfy ===
/** Powers of two and the 32-bit integer conversions of ECMAScript that the
    tile arithmetic relies on: `ToUint32`, `ToInt32`, unsigned right shift,
    and single-bit tests. Values are unbounded integers; every wrap-around is
    written out. */
module Bits {

  const TWO32: nat := 0x1_0000_0000
  const TWO31: nat := 0x8000_0000

  function Pow2(n: nat): (r: nat)
    ensures r >= 1
  {
    if n == 0 then 1 else 2 * Pow2(n - 1)
  }

  /** `Math.pow(2, z)` for any integer zoom, as a real. */
  function Exp2(z: int): (r: real)
    ensures r > 0.0
    ensures z >= 0 ==> r == Pow2(z) as real
  {
    if z >= 0 then Pow2(z) as real else 1.0 / Pow2(-z) as real
  }

  lemma {:induction false} Pow2Add(a: nat, b: nat)
    ensures Pow2(a + b) == Pow2(a) * Pow2(b)
    decreases a
  {
    if a > 0 {
      Pow2Add(a - 1, b);
      assert Pow2(a + b) == 2 * Pow2(a - 1 + b);
      assert 2 * (Pow2(a - 1) * Pow2(b)) == (2 * Pow2(a - 1)) * Pow2(b);
    }
  }

  lemma Pow2Of32()
    ensures Pow2(32) == TWO32
  {
    assert Pow2(4) == 16;
    Pow2Add(4, 4);
    Pow2Add(8, 8);
    Pow2Add(16, 16);
  }

  lemma {:induction false} Pow2Monotone(a: nat, b: nat)
    requires a <= b
    ensures Pow2(a) <= Pow2(b)
    decreases b - a
  {
    if a < b {
      Pow2Monotone(a, b - 1);
    }
  }

  /** Each step up in zoom doubles `Math.pow(2, z)`, for negative zooms too. */
  lemma Exp2Step(z: int)
    ensures Exp2(z + 1) == 2.0 * Exp2(z)
  {
    if z < -1 {
      var p := Pow2(-z - 1) as real;
      assert Pow2(-z) as real == 2.0 * p;
      assert Exp2(z + 1) == 1.0 / p;
      assert Exp2(z) == 1.0 / (2.0 * p);
    }
  }

  /** ECMAScript ToUint32 on an integral number: reduction modulo 2^32. */
  function ToUint32(v: int): (r: nat)
    ensures r < TWO32
    ensures 0 <= v < TWO32 ==> r == v
    ensures (v - r) % TWO32 == 0
  {
    v % TWO32
  }

  /** ECMAScript ToInt32 on an integral number: the signed reading of the low 32 bits. */
  function ToInt32(v: int): (r: int)
    ensures -(TWO31 as int) <= r < TWO31
    ensures ToUint32(r) == ToUint32(v)
    ensures -(TWO31 as int) <= v < TWO31 ==> r == v
  {
    var u := ToUint32(v);
    if u >= TWO31 then u - TWO32 else u
  }

  /** `v >>> s`: the shift count is taken modulo 32 and the operand as unsigned. */
  function UShr(v: int, s: int): nat {
    NatDiv(ToUint32(v), Pow2(s % 32))
  }

  /** Division of naturals stays natural. */
  function NatDiv(a: nat, b: nat): (q: nat)
    requires b >= 1
    ensures q * b <= a < (q + 1) * b
  {
    a / b
  }

  /** Bit `k` of the non-negative integer `v`. */
  function Bit(v: nat, k: nat): (r: nat)
    ensures r < 2
  {
    Prefix(v, k) % 2
  }

  /** The bits of `v` from position `s` upwards. */
  function Prefix(v: nat, s: nat): nat {
    NatDiv(v, Pow2(s))
  }

  lemma MulAtLeast(d: int, k: int)
    requires d > 0 && k >= 1
    ensures d * k >= d
  {
  }

  lemma DivUnique(v: int, d: int, q: int, r: int)
    requires d > 0 && 0 <= r < d && v == d * q + r
    ensures v / d == q && v % d == r
  {
    var q', r' := v / d, v % d;
    assert d * q + r == d * q' + r';
    assert d * (q - q') == r' - r;
    if q > q' {
      MulAtLeast(d, q - q');
    } else if q < q' {
      MulAtLeast(d, q' - q);
    }
  }

  lemma DivBound(v: nat, a: nat, b: nat)
    requires a > 0 && v < a * b
    ensures v / a < b
  {
    var q := v / a;
    assert a * q <= v;
    if q >= b {
      MulMonotone(a, b, q);
    }
  }

  lemma MulMonotone(a: nat, b: nat, c: nat)
    requires b <= c
    ensures a * b <= a * c
  {
  }

  lemma DivDiv(v: nat, a: nat, b: nat)
    requires a > 0 && b > 0
    ensures v / (a * b) == (v / a) / b
  {
    var q := v / a;
    var r := v % a;
    var q2 := q / b;
    var r2 := q % b;
    DivDivArith(v, a, b, q, r, q2, r2);
    DivUnique(v, a * b, q2, a * r2 + r);
  }

  lemma DivDivArith(v: int, a: int, b: int, q: int, r: int, q2: int, r2: int)
    requires a > 0 && b > 0
    requires v == a * q + r && 0 <= r < a
    requires q == b * q2 + r2 && 0 <= r2 < b
    ensures v == (a * b) * q2 + (a * r2 + r)
    ensures 0 <= a * r2 + r < a * b
  {
    assert a * q == (a * b) * q2 + a * r2 by {
      assert a * (b * q2 + r2) == (a * b) * q2 + a * r2;
    }
    MulMonotone(a, 0, r2);
    MulMonotone(a, r2, b - 1);
    assert a * (b - 1) == a * b - a;
  }

  lemma PrefixStep(v: nat, s: nat)
    ensures Prefix(v, s) == 2 * Prefix(v, s + 1) + Bit(v, s)
  {
    var q := v / Pow2(s);
    assert Pow2(s + 1) == Pow2(s) * 2;
    DivDiv(v, Pow2(s), 2);
  }

  lemma PrefixBound(v: nat, s: nat)
    requires v < TWO32 && s <= 32
    ensures Prefix(v, s) < Pow2(32 - s)
  {
    Pow2Of32();
    Pow2Add(s, 32 - s);
    DivBound(v, Pow2(s), Pow2(32 - s));
  }

  /** Two 32-bit values share the prefix above position `s` exactly when they
      agree on every bit from `s` to 31. */
  lemma {:induction false} PrefixAgree(a: nat, b: nat, s: nat)
    requires a < TWO32 && b < TWO32 && s <= 32
    ensures Prefix(a, s) == Prefix(b, s) <==> forall k :: s <= k < 32 ==> Bit(a, k) == Bit(b, k)
    decreases 32 - s
  {
    if s == 32 {
      PrefixBound(a, 32);
      PrefixBound(b, 32);
    } else {
      PrefixAgree(a, b, s + 1);
      PrefixStep(a, s);
      PrefixStep(b, s);
    }
  }

  /** Shifting right by `32 - z` keeps the top `z` bits of the unsigned reading. */
  lemma UShrIsPrefix(v: int, z: nat)
    requires 1 <= z <= 32
    ensures UShr(v, 32 - z) == Prefix(ToUint32(v), 32 - z)
    ensures UShr(v, 32 - z) < Pow2(z)
  {
    assert (32 - z) % 32 == 32 - z || z == 32;
    PrefixBound(ToUint32(v), 32 - z);
  }

  lemma MulLeReal(n: real, a: real, b: real)
    requires n > 0.0 && a <= b
    ensures n * a <= n * b
  {
  }

  lemma MulLtReal(n: real, a: real, b: real)
    requires n > 0.0 && a < b
    ensures n * a < n * b
  {
  }
}

=== FILE: cells.dfy ===
/** What both revisions of `LocalSpatialId` share: the cell record, its
    regenerated attributes, the constructor's input dispatch, the single-axis
    moves, the children, and `contains` between two cells. */
module Cells {
  import opened Failures
  import opened Tilebelt
  import opened TilebeltLocal
  import opened Externals
  import opened Namespaces
  import opened ZfxyString
  import opened Seqs
  import opened Bits

  /** The zoom a point or box is quantized at when the caller gives none. */
  const DEFAULT_ZOOM: int := 25

  /** A `LocalSpatialId`: a tile of a namespace and the attributes derived from it. */
  datatype Cell = Cell(namespace: Namespace, zfxy: ZFXY, id: string, zfxyStr: string, tilehash: string)

  /** `_regenerateAttributesFromZFXY` applied to a cell over tile `t`. */
  function MakeCell(ns: Namespace, t: ZFXY, lib: ZfxyLib): (c: Cell)
    ensures c.namespace == ns && c.zfxy == t
    ensures c.id == c.tilehash == lib.generateTilehash(t)
    ensures DecodeZfxyStr(c.zfxyStr) == Some(t)
  {
    ZfxyStrRoundTrip(t);
    var hash := lib.generateTilehash(t);
    Cell(ns, t, hash, ZfxyStr(t), hash)
  }

  /** The attributes of `c` are the ones its tile regenerates. */
  ghost predicate Regenerated(c: Cell, lib: ZfxyLib) {
    c == MakeCell(c.namespace, c.zfxy, lib)
  }

  /** Two regenerated cells are equal exactly when their namespaces and tiles are. */
  lemma RegeneratedCellsEqual(c: Cell, d: Cell, lib: ZfxyLib)
    requires Regenerated(c, lib) && Regenerated(d, lib)
    ensures c == d <==> c.namespace == d.namespace && c.zfxy == d.zfxy
  {
  }

  /* ---------------------------------------------------------------- */
  /* Construction                                                      */
  /* ---------------------------------------------------------------- */

  /** `LocalSpatialIdInput`: a string, a tile, or a local point or box. */
  datatype CellInput = Text(text: string) | Tile(tile: ZFXY) | Local(local: LocalInput)

  /** `parseZFXYString(s) || parseZFXYTilehash(s)`. */
  function ParseCellText(s: string, lib: ZfxyLib): (r: Option<ZFXY>)
    ensures r.None? <==> lib.parseZfxyString(s).None? && lib.parseTilehash(s).None?
    ensures lib.parseZfxyString(s).Some? ==> r == lib.parseZfxyString(s)
    ensures lib.parseZfxyString(s).None? ==> r == lib.parseTilehash(s)
  {
    match lib.parseZfxyString(s)
    case Some(t) => Some(t)
    case None => lib.parseTilehash(s)
  }

  /** The quantizer can run in this namespace (IEEE infinities are not modelled). */
  predicate Quantizable(ns: Namespace) {
    ns.scale != 0.0 && ns.scaleHeight != 0.0
  }

  /** The constructor: parse a string, keep a tile, or quantize a point or box
      with clamping at `zoom` (default 25). */
  function NewCell(ns: Namespace, input: CellInput, zoom: Option<int>, lib: ZfxyLib): (r: Result<Cell>)
    requires input.Local? ==> Quantizable(ns)
    ensures r.Err? <==> input.Text? && ParseCellText(input.text, lib).None?
    ensures r.Err? ==> r.error == ParseFailure
    ensures r.Ok? ==> Regenerated(r.value, lib) && r.value.namespace == ns
    ensures input.Text? && r.Ok? ==> Some(r.value.zfxy) == ParseCellText(input.text, lib)
    ensures input.Tile? ==> r.Ok? && r.value.zfxy == input.tile
    ensures input.Local? ==> (r.Ok?
      && r.value.zfxy.z <= zoom.GetOr(DEFAULT_ZOOM) && r.value.zfxy.z <= MAX_ZOOM
      && Ok(r.value.zfxy) == CalculateLocalZFXY(ns.scale, ns.scaleHeight, input.local, zoom.GetOr(DEFAULT_ZOOM), true))
    ensures input.Local? && input.local.PointInput? ==> (r.Ok?
      && r.value.zfxy.z == Min(zoom.GetOr(DEFAULT_ZOOM), MAX_ZOOM))
  {
    match input
    case Text(s) =>
      (match ParseCellText(s, lib)
       case Some(t) => Ok(MakeCell(ns, t, lib))
       case None => Err(ParseFailure))
    case Tile(t) => Ok(MakeCell(ns, t, lib))
    case Local(l) =>
      var t := CalculateLocalZFXY(ns.scale, ns.scaleHeight, l, zoom.GetOr(DEFAULT_ZOOM), true);
      Ok(MakeCell(ns, t.value, lib))
  }

  function Min(a: int, b: int): int { if a <= b then a else b }

  /** A point of the root cube becomes the cell whose footprint holds it. */
  lemma PointCellHoldsPoint(ns: Namespace, x: real, y: real, alt: real, zoom: int, lib: ZfxyLib)
    requires ns.scale > 0.0 && ns.scaleHeight > 0.0 && 0 <= zoom
    requires PointInRoot(ns.scale, ns.scaleHeight, x, y, alt)
    ensures var t := NewCell(ns, Local(PointInput(x, y, alt)), Some(zoom), lib).value.zfxy;
      t.z >= 0 && InTileFootprint(ns.scale, ns.scaleHeight, XYFZ(t.x, t.y, t.f, t.z), x, y, alt)
  {
    var z: nat := Min(zoom, MAX_ZOOM);
    if z == 0 {
      OriginTile(ns.scale, ns.scaleHeight, x, y, alt, zoom);
      PointLiesInItsCell(ns.scale, ns.scaleHeight, x, y, alt, 0);
    } else {
      PointCellIsPointTile(ns.scale, ns.scaleHeight, x, y, alt, zoom, true);
      ClampIrrelevantInRoot(ns.scale, ns.scaleHeight, x, y, alt, z);
      PointLiesInItsCell(ns.scale, ns.scaleHeight, x, y, alt, z);
    }
  }

  /** At zoom 0 every point of the root cube quantizes to the root tile. */
  lemma OriginTile(scale: real, scaleHeight: real, x: real, y: real, alt: real, zoom: int)
    requires scale > 0.0 && scaleHeight > 0.0 && Min(zoom, MAX_ZOOM) == 0
    requires PointInRoot(scale, scaleHeight, x, y, alt)
    ensures PointToLocalTile(scale, scaleHeight, x, y, alt, 0, false) == Ok(Root)
    ensures CalculateLocalZFXY(scale, scaleHeight, PointInput(x, y, alt), zoom, true) == Ok(ZFXY(0, 0, 0, 0))
  {
    ScaledInRange(x, scale, 0);
    ScaledInRange(y, scale, 0);
    ScaledInRange(alt, scaleHeight, 0);
  }

  /* ---------------------------------------------------------------- */
  /* Moves                                                             */
  /* ---------------------------------------------------------------- */

  /** The argument of `move`: an absent axis and an axis of 0 both mean no change (`by.f || 0`). */
  datatype Delta = Delta(f: int, x: int, y: int)

  /** `move`: copy the cell, add the deltas to f, x and y, wrap, regenerate. */
  function Move(c: Cell, step: Delta, lib: ZfxyLib): (r: Cell)
    ensures r.namespace == c.namespace && Regenerated(r, lib)
    ensures r.zfxy == lib.wraparound(c.zfxy.(f := c.zfxy.f + step.f, x := c.zfxy.x + step.x, y := c.zfxy.y + step.y))
  {
    var copy := MakeCell(c.namespace, c.zfxy, lib);
    var t := copy.zfxy;
    MakeCell(copy.namespace, lib.wraparound(ZFXY(t.z, t.f + step.f, t.x + step.x, t.y + step.y)), lib)
  }

  function Up(c: Cell, step: int, lib: ZfxyLib): (r: Cell)
    ensures r.namespace == c.namespace && Regenerated(r, lib)
    ensures r.zfxy == lib.wraparound(c.zfxy.(f := c.zfxy.f + step))
  {
    Move(c, Delta(step, 0, 0), lib)
  }

  function Down(c: Cell, step: int, lib: ZfxyLib): (r: Cell)
    ensures r.namespace == c.namespace && Regenerated(r, lib)
    ensures r.zfxy == lib.wraparound(c.zfxy.(f := c.zfxy.f - step))
  {
    Move(c, Delta(-step, 0, 0), lib)
  }

  function North(c: Cell, step: int, lib: ZfxyLib): (r: Cell)
    ensures r.namespace == c.namespace && Regenerated(r, lib)
    ensures r.zfxy == lib.wraparound(c.zfxy.(y := c.zfxy.y + step))
  {
    Move(c, Delta(0, 0, step), lib)
  }

  function South(c: Cell, step: int, lib: ZfxyLib): (r: Cell)
    ensures r.namespace == c.namespace && Regenerated(r, lib)
    ensures r.zfxy == lib.wraparound(c.zfxy.(y := c.zfxy.y - step))
  {
    Move(c, Delta(0, 0, -step), lib)
  }

  function East(c: Cell, step: int, lib: ZfxyLib): (r: Cell)
    ensures r.namespace == c.namespace && Regenerated(r, lib)
    ensures r.zfxy == lib.wraparound(c.zfxy.(x := c.zfxy.x + step))
  {
    Move(c, Delta(0, step, 0), lib)
  }

  function West(c: Cell, step: int, lib: ZfxyLib): (r: Cell)
    ensures r.namespace == c.namespace && Regenerated(r, lib)
    ensures r.zfxy == lib.wraparound(c.zfxy.(x := c.zfxy.x - step))
  {
    Move(c, Delta(0, -step, 0), lib)
  }

  /** The tile's indices address a tile of its zoom. */
  predicate InRange(t: ZFXY) {
    t.z >= 0 && 0 <= t.f < Pow2(t.z) && 0 <= t.x < Pow2(t.z) && 0 <= t.y < Pow2(t.z)
  }

  /** What the model assumes of `zfxyWraparound` where it needs anything: it keeps
      a tile that is already in range. */
  ghost predicate WrapKeepsInRange(lib: ZfxyLib) {
    forall t :: InRange(t) ==> lib.wraparound(t) == t
  }

  /** A move that stays in range changes exactly the named axes, step exactly the deltas. */
  lemma MoveInRange(c: Cell, step: Delta, lib: ZfxyLib)
    requires WrapKeepsInRange(lib)
    requires InRange(ZFXY(c.zfxy.z, c.zfxy.f + step.f, c.zfxy.x + step.x, c.zfxy.y + step.y))
    ensures Move(c, step, lib).zfxy.z == c.zfxy.z
    ensures Move(c, step, lib).zfxy.f - c.zfxy.f == step.f
    ensures Move(c, step, lib).zfxy.x - c.zfxy.x == step.x
    ensures Move(c, step, lib).zfxy.y - c.zfxy.y == step.y
  {
  }

  /** `down` undoes `up` while the cell stays in range. */
  lemma UpThenDown(c: Cell, step: int, lib: ZfxyLib)
    requires WrapKeepsInRange(lib) && Regenerated(c, lib)
    requires InRange(c.zfxy) && InRange(c.zfxy.(f := c.zfxy.f + step))
    ensures Down(Up(c, step, lib), step, lib) == c
  {
    var u := Up(c, step, lib);
    assert u.zfxy == c.zfxy.(f := c.zfxy.f + step);
    assert u.zfxy.(f := u.zfxy.f - step) == c.zfxy;
  }

  /** `west` undoes `east` while the cell stays in range. */
  lemma EastThenWest(c: Cell, step: int, lib: ZfxyLib)
    requires WrapKeepsInRange(lib) && Regenerated(c, lib)
    requires InRange(c.zfxy) && InRange(c.zfxy.(x := c.zfxy.x + step))
    ensures West(East(c, step, lib), step, lib) == c
  {
    var e := East(c, step, lib);
    assert e.zfxy == c.zfxy.(x := c.zfxy.x + step);
    assert e.zfxy.(x := e.zfxy.x - step) == c.zfxy;
  }

  /** `south` undoes `north` while the cell stays in range. */
  lemma NorthThenSouth(c: Cell, step: int, lib: ZfxyLib)
    requires WrapKeepsInRange(lib) && Regenerated(c, lib)
    requires InRange(c.zfxy) && InRange(c.zfxy.(y := c.zfxy.y + step))
    ensures South(North(c, step, lib), step, lib) == c
  {
    var n := North(c, step, lib);
    assert n.zfxy == c.zfxy.(y := c.zfxy.y + step);
    assert n.zfxy.(y := n.zfxy.y - step) == c.zfxy;
  }

  /* ---------------------------------------------------------------- */
  /* Children                                                          */
  /* ---------------------------------------------------------------- */

  /** `childrenAtZoom`: one regenerated cell per tile the library lists, in order. */
  function ChildrenAtZoom(c: Cell, zoom: int, lib: ZfxyLib): (r: seq<Cell>)
    ensures |r| == |lib.getChildrenAtZoom(zoom, c.zfxy)|
    ensures forall i :: 0 <= i < |r| ==>
      r[i].namespace == c.namespace && r[i].zfxy == lib.getChildrenAtZoom(zoom, c.zfxy)[i] && Regenerated(r[i], lib)
  {
    Map(lib.getChildrenAtZoom(zoom, c.zfxy), (t: ZFXY) => MakeCell(c.namespace, t, lib))
  }

  /** `children`: the cells one zoom deeper. */
  function Children(c: Cell, lib: ZfxyLib): (r: seq<Cell>)
    ensures |r| == |lib.getChildrenAtZoom(c.zfxy.z + 1, c.zfxy)|
    ensures forall i :: 0 <= i < |r| ==>
      r[i].namespace == c.namespace && r[i].zfxy == lib.getChildrenAtZoom(c.zfxy.z + 1, c.zfxy)[i]
      && Regenerated(r[i], lib)
    ensures r == ChildrenAtZoom(c, c.zfxy.z + 1, lib)
  {
    ChildrenAtZoom(c, c.zfxy.z + 1, lib)
  }

  /* ---------------------------------------------------------------- */
  /* contains between cells                                            */
  /* ---------------------------------------------------------------- */

  /** `s.startsWith(prefix)`, character step character. */
  function StartsWith(s: string, prefix: string): (r: bool)
    ensures r <==> prefix <= s
  {
    if |prefix| == 0 then true
    else |s| > 0 && s[0] == prefix[0] && StartsWith(s[1..], prefix[1..])
  }

  /** The two namespace ids do not rule containment out: one of them is empty
      (falsy) or they are equal. */
  predicate IdsCompatible(a: Namespace, b: Namespace) {
    a.id == "" || b.id == "" || a.id == b.id
  }

  /** `contains` with a cell argument. */
  function ContainsCell(c: Cell, other: Cell): (r: bool)
    ensures r <==> IdsCompatible(c.namespace, other.namespace) && c.tilehash <= other.tilehash
  {
    if other.namespace.id != "" && c.namespace.id != "" && other.namespace.id != c.namespace.id then false
    else StartsWith(other.tilehash, c.tilehash)
  }

  lemma ContainsReflexive(c: Cell)
    ensures ContainsCell(c, c)
  {
  }

  /** Within one namespace id, containment is transitive. */
  lemma ContainsTransitive(a: Cell, b: Cell, c: Cell)
    requires a.namespace.id == b.namespace.id == c.namespace.id
    requires ContainsCell(a, b) && ContainsCell(b, c)
    ensures ContainsCell(a, c)
  {
  }

  /** Across namespaces it is not: a cell of an anonymous namespace links two
      namespaces that exclude each other. */
  lemma ContainsNotTransitiveThroughAnonymous()
    ensures var nsA := Namespace("a", 1.0, 1.0, None, None, None, None);
      var nsB := Namespace("b", 1.0, 1.0, None, None, None, None);
      var anon := Namespace("", 1.0, 1.0, None, None, None, None);
      var t := ZFXY(0, 0, 0, 0);
      var a := Cell(nsA, t, "h", "/0/0/0/0", "h");
      var m := Cell(anon, t, "h", "/0/0/0/0", "h");
      var b := Cell(nsB, t, "h", "/0/0/0/0", "h");
      ContainsCell(a, m) && ContainsCell(m, b) && !ContainsCell(a, b)
  {
  }

  /** The argument of `contains` and `intersects`: a cell or a GeoJSON geometry. */
  datatype Target = CellTarget(cell: Cell) | GeometryTarget(geometry: Geometry)
}

=== FILE: demo_cells.dfy ===
/** The demo revision of `LocalSpatialId`
    (demo/src/local-spatial-id-js-sdk/local_spatial_id.ts): the root tile has its
    top-left corner at the namespace origin, the footprint is georeferenced corner
    by corner, and the vertical extent comes from `scale_height`. */
module DemoCells {
  import opened Failures
  import opened Bits
  import opened Tilebelt
  import opened TilebeltLocal
  import opened Externals
  import opened Namespaces
  import opened Seqs
  import opened Cells

  /* ---------------------------------------------------------------- */
  /* parent                                                            */
  /* ---------------------------------------------------------------- */

  /** `parent(atZoom)`: one step by default, else `z - atZoom` steps; asking for a
      deeper zoom than the cell's is an error. */
  function Parent(c: Cell, atZoom: Option<int>, lib: ZfxyLib): (r: Result<Cell>)
    ensures r.Err? <==> atZoom.Some? && atZoom.value > c.zfxy.z
    ensures r.Err? ==> r.error == InvalidNavigation
    ensures r.Ok? ==> r.value.namespace == c.namespace && Regenerated(r.value, lib)
    ensures atZoom.None? ==> r.Ok? && r.value.zfxy == lib.getParent(c.zfxy, 1)
    ensures atZoom.Some? && r.Ok? ==> r.value.zfxy == lib.getParent(c.zfxy, c.zfxy.z - atZoom.value)
  {
    var steps := if atZoom.None? then 1 else c.zfxy.z - atZoom.value;
    if steps < 0 then Err(InvalidNavigation)
    else Ok(MakeCell(c.namespace, lib.getParent(c.zfxy, steps), lib))
  }

  /** The default parent is the parent at the zoom just above. */
  lemma ParentDefaultIsOneUp(c: Cell, lib: ZfxyLib)
    ensures Parent(c, None, lib) == Parent(c, Some(c.zfxy.z - 1), lib)
  {
  }

  /* ---------------------------------------------------------------- */
  /* The footprint                                                     */
  /* ---------------------------------------------------------------- */

  /** Local corners of a cell in metres, y pointing north: `x0..x1` west to east,
      `y0` the top edge and `y1` the bottom edge. */
  datatype Corners = Corners(x0: real, y0: real, x1: real, y1: real)

  /** The corners `toGeoJSON` georeferences: `x*m`, `(x+1)*m`, `-(y*m)`, `-((y+1)*m)`
      with `m = tile2meters(scale, z)`. */
  function LocalCorners(c: Cell): (k: Corners)
    ensures var m := Tile2Meters(c.namespace.scale, c.zfxy.z);
      && k.x1 - k.x0 == m && k.y0 - k.y1 == m
      && k.x0 == m * (c.zfxy.x as real) && k.y0 == -(m * (c.zfxy.y as real))
  {
    var m := Tile2Meters(c.namespace.scale, c.zfxy.z);
    Corners(m * (c.zfxy.x as real), 0.0 - m * (c.zfxy.y as real),
            m * (c.zfxy.x as real + 1.0), 0.0 - m * (c.zfxy.y as real + 1.0))
  }

  /** `toGeoJSON`: the georeferenced footprint as a closed ring of five points. */
  function ToGeoJSON(c: Cell): (r: Result<Geometry>)
    ensures r.Err? <==> c.namespace.georeferencer.None?
    ensures r.Err? ==> r.error == ConversionNotPossible
    ensures r.Ok? ==>
      var k := LocalCorners(c);
      var T := c.namespace.georeferencer.value.transform;
      && r.value.kind == Polygon
      && |r.value.coordinates| == 1
      && r.value.coordinates[0] == [T(Point(k.x0, k.y0)), T(Point(k.x0, k.y1)), T(Point(k.x1, k.y1)), T(Point(k.x1, k.y0)), T(Point(k.x0, k.y0))]
  {
    match c.namespace.georeferencer
    case None => Err(ConversionNotPossible)
    case Some(g) =>
      var k := LocalCorners(c);
      var p0 := g.transform(Point(k.x0, k.y0));
      var p1 := g.transform(Point(k.x0, k.y1));
      var p2 := g.transform(Point(k.x1, k.y1));
      var p3 := g.transform(Point(k.x1, k.y0));
      Ok(Geometry(Polygon, [[p0, p1, p2, p3, p0]]))
  }

  /** The ring is closed: five points, the last one equal to the first. */
  lemma RingIsClosed(c: Cell)
    requires ToGeoJSON(c).Ok?
    ensures var ring := ToGeoJSON(c).value.coordinates[0];
      |ring| == 5 && ring[0] == ring[4]
  {
  }

  /** The footprint does not depend on `f`. */
  lemma FootprintIgnoresF(c: Cell, d: Cell)
    requires c.namespace == d.namespace && c.zfxy.(f := 0) == d.zfxy.(f := 0)
    ensures ToGeoJSON(c) == ToGeoJSON(d)
  {
    assert c.zfxy.x == d.zfxy.x && c.zfxy.y == d.zfxy.y && c.zfxy.z == d.zfxy.z;
    assert LocalCorners(c) == LocalCorners(d);
  }

  /** The west and east corners bound the cell's edge on the x axis. */
  lemma CornersBoundX(c: Cell, px: real)
    requires c.zfxy.z >= 0
    ensures var k := LocalCorners(c);
      k.x0 <= px < k.x1 <==> InEdge(c.zfxy.x, px, c.namespace.scale, c.zfxy.z)
  {
  }

  /** The top and bottom corners bound the cell's edge on the y axis, flipped. */
  lemma CornersBoundY(c: Cell, py: real)
    requires c.zfxy.z >= 0
    ensures var k := LocalCorners(c);
      k.y1 < py <= k.y0 <==> InEdge(c.zfxy.y, -py, c.namespace.scale, c.zfxy.z)
  {
  }

  /** With the y axis flipped back, the points of a cell's local footprint (and of its
      vertical band) are exactly the points the quantizer sends to that cell. */
  lemma FootprintIsQuantizerCell(c: Cell, px: real, py: real, alt: real)
    requires c.namespace.scale > 0.0 && c.namespace.scaleHeight > 0.0
    requires InRange(c.zfxy)
    ensures var t := XYFZ(c.zfxy.x, c.zfxy.y, c.zfxy.f, c.zfxy.z);
      var k := LocalCorners(c);
      PointToLocalTile(c.namespace.scale, c.namespace.scaleHeight, px, -py, alt, c.zfxy.z, false) == Ok(t)
      <==> (k.x0 <= px < k.x1 && k.y1 < py <= k.y0 && InEdge(c.zfxy.f, alt, c.namespace.scaleHeight, c.zfxy.z))
  {
    var t := XYFZ(c.zfxy.x, c.zfxy.y, c.zfxy.f, c.zfxy.z);
    QuantizeIffInFootprint(c.namespace.scale, c.namespace.scaleHeight, t, px, -py, alt);
    CornersBoundX(c, px);
    CornersBoundY(c, py);
  }

  /* ---------------------------------------------------------------- */
  /* contains / intersects                                             */
  /* ---------------------------------------------------------------- */

  /** `contains`: for a cell, the id and tilehash test; for a geometry, the footprint
      is built first, then a GeometryCollection is refused, then turf decides. */
  function Contains(c: Cell, target: Target, turf: Turf): (r: Result<bool>)
    ensures target.CellTarget? ==> r == Ok(ContainsCell(c, target.cell))
    ensures target.GeometryTarget? && c.namespace.georeferencer.None? ==> r == Err(ConversionNotPossible)
    ensures target.GeometryTarget? && c.namespace.georeferencer.Some? && target.geometry.kind == GeometryCollection
      ==> r == Err(UnsupportedGeometry)
    ensures target.GeometryTarget? && c.namespace.georeferencer.Some? && target.geometry.kind != GeometryCollection
      ==> r == Ok(turf.booleanContains(ToGeoJSON(c).value, target.geometry))
  {
    match target
    case CellTarget(other) => Ok(ContainsCell(c, other))
    case GeometryTarget(g) =>
      var polygon :- ToGeoJSON(c);
      if g.kind == GeometryCollection then Err(UnsupportedGeometry)
      else Ok(turf.booleanContains(polygon, g))
  }

  /** `intersects`: not implemented between cells; for a geometry, as `contains`. */
  function Intersects(c: Cell, target: Target, turf: Turf): (r: Result<bool>)
    ensures target.CellTarget? ==> r == Err(NotImplemented)
    ensures target.GeometryTarget? && c.namespace.georeferencer.None? ==> r == Err(ConversionNotPossible)
    ensures target.GeometryTarget? && c.namespace.georeferencer.Some? && target.geometry.kind == GeometryCollection
      ==> r == Err(UnsupportedGeometry)
    ensures target.GeometryTarget? && c.namespace.georeferencer.Some? && target.geometry.kind != GeometryCollection
      ==> r == Ok(turf.booleanIntersects(ToGeoJSON(c).value, target.geometry))
  {
    match target
    case CellTarget(_) => Err(NotImplemented)
    case GeometryTarget(g) =>
      var polygon :- ToGeoJSON(c);
      if g.kind == GeometryCollection then Err(UnsupportedGeometry)
      else Ok(turf.booleanIntersects(polygon, g))
  }

  /* ---------------------------------------------------------------- */
  /* WGS84 bounding boxes                                              */
  /* ---------------------------------------------------------------- */

  /** `toWGS84BBox2D`: turf's bounding box of the footprint. */
  function ToWGS84BBox2D(c: Cell, turf: Turf): (r: Result<BBox2D>)
    ensures r.Err? <==> c.namespace.georeferencer.None?
    ensures r.Err? ==> r.error == ConversionNotPossible
    ensures r.Ok? ==> r.value == turf.bbox(ToGeoJSON(c).value)
  {
    var geometry :- ToGeoJSON(c);
    Ok(turf.bbox(geometry))
  }

  /** The altitude band of the `f`-th vertical tile at zoom `z` above `altitude`. */
  datatype Band = Band(lo: real, hi: real)

  function VerticalBand(altitude: real, scaleHeight: real, f: int, z: int): (b: Band)
    ensures b.hi - b.lo == Tile2Meters(scaleHeight, z)
  {
    var h := Tile2Meters(scaleHeight, z);
    Band(altitude + (f as real) * h, altitude + (f as real + 1.0) * h)
  }

  /** `toWGS84BBox`: the 2D box with the altitude band `[alt + f*h, alt + (f+1)*h]`,
      `h = tile2meters(scale_height, z)`. Reading the altitude of a missing origin
      throws a TypeError. */
  function ToWGS84BBox(c: Cell, turf: Turf): (r: Result<BBox3D>)
    ensures r.Err? <==> c.namespace.georeferencer.None? || c.namespace.origin.None?
    ensures c.namespace.georeferencer.None? ==> r == Err(ConversionNotPossible)
    ensures c.namespace.georeferencer.Some? && c.namespace.origin.None? ==> r == Err(TypeError)
    ensures r.Ok? ==>
      var b2 := ToWGS84BBox2D(c, turf).value;
      var band := VerticalBand(c.namespace.origin.value.altitude, c.namespace.scaleHeight, c.zfxy.f, c.zfxy.z);
      && r.value.minX == b2.minX && r.value.minY == b2.minY && r.value.maxX == b2.maxX && r.value.maxY == b2.maxY
      && r.value.minF == band.lo && r.value.maxF == band.hi
  {
    var b2 :- ToWGS84BBox2D(c, turf);
    match c.namespace.origin
    case None => Err(TypeError)
    case Some(o) =>
      var h := Tile2Meters(c.namespace.scaleHeight, c.zfxy.z);
      Ok(BBox3D(b2.minX, b2.minY, o.altitude + (c.zfxy.f as real) * h,
                b2.maxX, b2.maxY, o.altitude + ((c.zfxy.f + 1) as real) * h))
  }

  /** A namespace built by its constructor never reaches the TypeError. */
  lemma AnchoredBBoxErrors(c: Cell, turf: Turf)
    requires Anchored(c.namespace)
    ensures ToWGS84BBox(c, turf).Err? ==> ToWGS84BBox(c, turf).error == ConversionNotPossible
  {
  }

  /** The band of a child tile (`f'` in `{2f, 2f+1}` one zoom deeper) lies inside its parent's. */
  lemma BandNests(altitude: real, scaleHeight: real, f: int, z: int, f': int)
    requires scaleHeight > 0.0 && (f' == 2 * f || f' == 2 * f + 1)
    ensures VerticalBand(altitude, scaleHeight, f, z).lo <= VerticalBand(altitude, scaleHeight, f', z + 1).lo
    ensures VerticalBand(altitude, scaleHeight, f', z + 1).hi <= VerticalBand(altitude, scaleHeight, f, z).hi
  {
    var h := Tile2Meters(scaleHeight, z);
    var h' := Tile2Meters(scaleHeight, z + 1);
    Tile2MetersHalves(scaleHeight, z);
    Tile2MetersPositive(scaleHeight, z);
    BandNestsArith(f as real, f' as real, h, h');
  }

  lemma BandNestsArith(f: real, f': real, h: real, h': real)
    requires h > 0.0 && h' == h / 2.0 && (f' == 2.0 * f || f' == 2.0 * f + 1.0)
    ensures f * h <= f' * h'
    ensures (f' + 1.0) * h' <= (f + 1.0) * h
  {
    assert f' * h' == (f' / 2.0) * h;
    assert (f' + 1.0) * h' == ((f' + 1.0) / 2.0) * h;
    MulLeReal(h, f, f' / 2.0);
    MulLeReal(h, (f' + 1.0) / 2.0, f + 1.0);
    assert h * f == f * h;
    assert h * (f + 1.0) == (f + 1.0) * h;
  }

  /** Consecutive bands of one zoom meet: the top of `f` is the bottom of `f + 1`. */
  lemma BandsTile(altitude: real, scaleHeight: real, f: int, z: int)
    ensures VerticalBand(altitude, scaleHeight, f, z).hi == VerticalBand(altitude, scaleHeight, f + 1, z).lo
  {
  }

  /* ---------------------------------------------------------------- */
  /* Global Spatial IDs                                                */
  /* ---------------------------------------------------------------- */

  /** The global tile `bboxToTile` gives for a WGS84 box, as a `{z, f, x, y}` object. */
  function GlobalTile(b: BBox3D, sdk: GlobalSdk): (t: ZFXY)
    ensures t.z <= MAX_ZOOM
    ensures t.z == BboxZoom(GlobalCorners32(b, sdk.projection))
    ensures t.z == 0 ==> t == ZFXY(0, 0, 0, 0)
    ensures t.z != 0 ==> var q := GlobalCorners32(b, sdk.projection);
      t.x == UShr(q.minX, 32 - t.z) && t.y == UShr(q.minY, 32 - t.z) && t.f == UShr(q.minF, 32 - t.z)
  {
    XyfzTileAryToObj(BboxToTile(b, None, sdk.projection))
  }

  /** `toContainingGlobalSpatialId`: the global space of the smallest tile holding
      the WGS84 box; with `ignoreF` the altitudes are set to 0 first. */
  function ToContainingGlobalSpatialId(c: Cell, ignoreF: bool, env: Env): (r: Result<Space>)
    ensures r.Err? <==> ToWGS84BBox(c, env.turf).Err?
    ensures r.Err? ==> r.error == ToWGS84BBox(c, env.turf).error
    ensures r.Ok? && !ignoreF ==> r.value == env.sdk.space(GlobalTile(ToWGS84BBox(c, env.turf).value, env.sdk))
    ensures r.Ok? && ignoreF ==>
      r.value == env.sdk.space(GlobalTile(ToWGS84BBox(c, env.turf).value.(minF := 0.0, maxF := 0.0), env.sdk))
  {
    var bbox :- ToWGS84BBox(c, env.turf);
    var b := if ignoreF then bbox.(minF := 0.0, maxF := 0.0) else bbox;
    Ok(env.sdk.space(GlobalTile(b, env.sdk)))
  }

  /** With `ignoreF`, every cell of a column gives the same global space. */
  lemma IgnoreFIsColumnwise(c: Cell, d: Cell, env: Env)
    requires c.namespace == d.namespace && c.zfxy.(f := 0) == d.zfxy.(f := 0)
    ensures ToContainingGlobalSpatialId(c, true, env) == ToContainingGlobalSpatialId(d, true, env)
  {
    FootprintIgnoresF(c, d);
  }

  /** The filter of `toGlobalSpatialIds`: the space's footprint meets the cell's and
      the altitude ranges overlap. */
  predicate KeepsSpace(sp: Space, geometry: Geometry, bbox: BBox3D, turf: Turf) {
    turf.booleanIntersects(sp.geometry, geometry) && bbox.minF <= sp.altMax && bbox.maxF >= sp.altMin
  }

  /** `toGlobalSpatialIds(zoom)`: the global spaces at `zoom` under the containing tile
      that meet the cell in plan and in altitude. */
  function ToGlobalSpatialIds(c: Cell, zoom: int, env: Env): (r: Result<seq<Space>>)
    ensures r.Err? <==> ToWGS84BBox(c, env.turf).Err?
    ensures r.Ok? ==>
      var bbox := ToWGS84BBox(c, env.turf).value;
      var tiles := env.zfxy.getChildrenAtZoom(zoom, GlobalTile(bbox, env.sdk));
      forall sp :: sp in r.value <==>
        (exists i :: 0 <= i < |tiles| && sp == env.sdk.space(tiles[i]))
        && KeepsSpace(sp, ToGeoJSON(c).value, bbox, env.turf)
    ensures r.Ok? ==>
      var bbox := ToWGS84BBox(c, env.turf).value;
      var spaces := Map(env.zfxy.getChildrenAtZoom(zoom, GlobalTile(bbox, env.sdk)), env.sdk.space);
      forall sp :: multiset(r.value)[sp] ==
        if KeepsSpace(sp, ToGeoJSON(c).value, bbox, env.turf) then multiset(spaces)[sp] else 0
  {
    var geometry :- ToGeoJSON(c);
    var bbox :- ToWGS84BBox(c, env.turf);
    var tiles := env.zfxy.getChildrenAtZoom(zoom, GlobalTile(bbox, env.sdk));
    var spaces := Map(tiles, env.sdk.space);
    var keep := (sp: Space) => KeepsSpace(sp, geometry, bbox, env.turf);
    FilterMultiset(spaces, keep);
    Ok(Filter(spaces, keep))
  }

  /** When every candidate space meets the cell, `toGlobalSpatialIds` returns them
      all, one per tile and in the order `getChildrenAtZoom` lists the tiles. */
  lemma GlobalIdsAllKept(c: Cell, zoom: int, env: Env)
    ensures ToWGS84BBox(c, env.turf).Ok? ==>
      var bbox := ToWGS84BBox(c, env.turf).value;
      var tiles := env.zfxy.getChildrenAtZoom(zoom, GlobalTile(bbox, env.sdk));
      var r := ToGlobalSpatialIds(c, zoom, env);
      (forall i :: 0 <= i < |tiles| ==> KeepsSpace(env.sdk.space(tiles[i]), ToGeoJSON(c).value, bbox, env.turf)) ==>
        && r.Ok? && |r.value| == |tiles|
        && forall i :: 0 <= i < |tiles| ==> r.value[i] == env.sdk.space(tiles[i])
  {
    if ToWGS84BBox(c, env.turf).Ok? {
      var geometry := ToGeoJSON(c).value;
      var bbox := ToWGS84BBox(c, env.turf).value;
      var tiles := env.zfxy.getChildrenAtZoom(zoom, GlobalTile(bbox, env.sdk));
      var spaces := Map(tiles, env.sdk.space);
      var keep := (sp: Space) => KeepsSpace(sp, geometry, bbox, env.turf);
      if forall i :: 0 <= i < |spaces| ==> keep(spaces[i]) {
        FilterKeepsAll(spaces, keep);
      }
    }
  }
}

=== FILE: externals.dfy ===
/** The collaborators the cell and namespace logic calls but does not define:
    the geodesic georeferencer, the turf geometry helpers, the zfxy / tilehash
    helpers and the global Spatial ID SDK. Each is a bundle of function values
    handed to the operations, so every property proved about the cells holds
    whatever those collaborators compute. */
module Externals {
  import opened Failures
  import opened Tilebelt

  /** A planar point `{x, y}`: local metres, or longitude / latitude in degrees. */
  datatype Point = Point(x: real, y: real)

  /** `CoordinateTransformer`: local metres to WGS84 and back. */
  datatype Georeferencer = Georeferencer(transform: Point -> Point, transformInverse: Point -> Point)

  /** The `type` tag of a GeoJSON geometry. */
  datatype GeometryType =
    | PointGeometry
    | MultiPoint
    | LineString
    | MultiLineString
    | Polygon
    | MultiPolygon
    | GeometryCollection

  /** A GeoJSON geometry: its type tag and its coordinate rings or lines. */
  datatype Geometry = Geometry(kind: GeometryType, coordinates: seq<seq<Point>>)

  /** `[minX, minY, maxX, maxY]`. */
  datatype BBox2D = BBox2D(minX: real, minY: real, maxX: real, maxY: real)

  /** `@turf/bbox`, `@turf/bbox-polygon`, `@turf/boolean-contains`, `@turf/boolean-intersects`. */
  datatype Turf = Turf(
    bbox: Geometry -> BBox2D,
    bboxPolygon: BBox2D -> Geometry,
    booleanContains: (Geometry, Geometry) -> bool,
    booleanIntersects: (Geometry, Geometry) -> bool)

  /** The helpers of `lib/zfxy` and `lib/zfxy_tilehash`. */
  datatype ZfxyLib = ZfxyLib(
    parseZfxyString: string -> Option<ZFXY>,
    parseTilehash: string -> Option<ZFXY>,
    generateTilehash: ZFXY -> string,
    wraparound: ZFXY -> ZFXY,
    getParent: (ZFXY, int) -> ZFXY,
    getChildrenAtZoom: (int, ZFXY) -> seq<ZFXY>)

  /** A global `SpatialId.Space`: only what the core reads of it. */
  datatype Space = Space(zfxy: ZFXY, geometry: Geometry, altMin: real, altMax: real)

  /** The global Spatial ID SDK, and the Mercator / altitude projections of `pointToTile`. */
  datatype GlobalSdk = GlobalSdk(space: ZFXY -> Space, projection: TileProjection)

  /** Everything a cell operation may call outside the core. */
  datatype Env = Env(zfxy: ZfxyLib, turf: Turf, sdk: GlobalSdk)
}

=== FILE: failures.dfy ===
/** Failure-carrying results shared by every module of the model.
    The source throws; the model returns `Err` with the kind of error thrown. */
module Failures {

  datatype Option<+T> = None | Some(value: T) {
    function GetOr(default: T): T {
      match this
      case Some(v) => v
      case None => default
    }
  }

  /** The kinds of exception the core throws. */
  datatype Error =
    | OutOfBounds            // quantizing a point outside the root cube without clamping
    | ParseFailure           // a string that is neither a canonical /z/f/x/y nor a tilehash
    | ConversionNotPossible  // a geographic operation on a namespace without origin
    | UnsupportedGeometry    // a GeometryCollection handed to contains / intersects
    | InvalidNavigation      // parent requested at a zoom deeper than the cell's
    | NotImplemented         // intersects between two cells
    | TypeError              // a field read on an undefined origin

  datatype Result<+T> = Ok(value: T) | Err(error: Error) {
    predicate IsFailure() {
      Err?
    }

    function PropagateFailure<U>(): Result<U>
      requires Err?
    {
      Err(error)
    }

    function Extract(): T
      requires Ok?
    {
      value
    }
  }
}

=== FILE: namespace_ops.dfy ===
/** The operations of `LocalNamespace` (src/local_namespace.ts) that build cells:
    `space`, `boundingSpaceFromGeoJSON` and `spacesFromGeoJSON`. */
module NamespaceOps {
  import opened Failures
  import opened Bits
  import opened Tilebelt
  import opened TilebeltLocal
  import opened Externals
  import opened Namespaces
  import opened ZfxyString
  import opened Seqs
  import opened Cells
  import PackageCells

  /* ---------------------------------------------------------------- */
  /* space                                                             */
  /* ---------------------------------------------------------------- */

  /** `space(input)`: a cell of this namespace at the default zoom. */
  function Space(ns: Namespace, input: CellInput, lib: ZfxyLib): (r: Result<Cell>)
    requires input.Local? ==> Quantizable(ns)
    ensures r.Err? <==> input.Text? && ParseCellText(input.text, lib).None?
    ensures r.Ok? ==> r.value.namespace == ns && Regenerated(r.value, lib)
    ensures input.Tile? ==> r == Ok(MakeCell(ns, input.tile, lib))
    ensures input.Local? ==> r.Ok? && r.value.zfxy.z <= DEFAULT_ZOOM
    ensures input.Local? && input.local.PointInput? ==> r.Ok? && r.value.zfxy.z == DEFAULT_ZOOM
  {
    NewCell(ns, input, None, lib)
  }

  /** A cell is rebuilt from its own `/z/f/x/y` string by any string parser that
      reads that string as the decoder does. */
  lemma SpaceFromOwnString(c: Cell, lib: ZfxyLib)
    requires Regenerated(c, lib)
    requires lib.parseZfxyString(c.zfxyStr) == DecodeZfxyStr(c.zfxyStr)
    ensures Space(c.namespace, Text(c.zfxyStr), lib) == Ok(c)
  {
  }

  /* ---------------------------------------------------------------- */
  /* boundingSpaceFromGeoJSON                                          */
  /* ---------------------------------------------------------------- */

  /** The local box of a WGS84 box: its two corners taken back to local metres,
      the y axis flipped, at altitude 0. */
  function LocalBox(g: Georeferencer, b: BBox2D): (r: BBox3D)
    ensures r.minF == 0.0 && r.maxF == 0.0
    ensures r.minX == g.transformInverse(Point(b.minX, b.minY)).x && r.minY == -g.transformInverse(Point(b.minX, b.minY)).y
    ensures r.maxX == g.transformInverse(Point(b.maxX, b.maxY)).x && r.maxY == -g.transformInverse(Point(b.maxX, b.maxY)).y
  {
    var nw := g.transformInverse(Point(b.minX, b.minY));
    var se := g.transformInverse(Point(b.maxX, b.maxY));
    BBox3D(nw.x, -nw.y, 0.0, se.x, -se.y, 0.0)
  }

  /** `boundingSpaceFromGeoJSON`: the cell the local box of the geometry's WGS84 box
      quantizes to. */
  function BoundingSpaceFromGeoJSON(ns: Namespace, geometry: Geometry, env: Env): (r: Result<Cell>)
    requires Quantizable(ns)
    ensures r.Err? <==> ns.georeferencer.None?
    ensures r.Err? ==> r.error == ConversionNotPossible
    ensures r.Ok? ==>
      var box := LocalBox(ns.georeferencer.value, env.turf.bbox(geometry));
      && r.value.namespace == ns && Regenerated(r.value, env.zfxy)
      && r.value.zfxy.z <= DEFAULT_ZOOM
      && Ok(r.value.zfxy) == CalculateLocalZFXY(ns.scale, ns.scaleHeight, BoxInput(box), DEFAULT_ZOOM, true)
  {
    match ns.georeferencer
    case None => Err(ConversionNotPossible)
    case Some(g) =>
      var box := LocalBox(g, env.turf.bbox(geometry));
      NewCell(ns, Local(BoxInput(box)), None, env.zfxy)
  }

  /** The vertical index of a clamped box quantization. */
  lemma BoxFloorIsTileFloor(scale: real, scaleHeight: real, b: BBox3D, zoom: int)
    requires scale != 0.0 && scaleHeight != 0.0
    ensures CalculateLocalZFXY(scale, scaleHeight, BoxInput(b), zoom, true).value.f
         == BboxToLocalTile(scale, scaleHeight, b, Some(zoom), true).value.f
  {
    assert InputBox(BoxInput(b)) == b;
  }

  /** A box at ground level quantizes to the bottom vertical tile. */
  lemma GroundBoxFloor(scale: real, scaleHeight: real, b: BBox3D, zoom: int)
    requires scale != 0.0 && scaleHeight != 0.0
    requires b.minF == 0.0 && b.maxF == 0.0 && 0 <= zoom
    ensures CalculateLocalZFXY(scale, scaleHeight, BoxInput(b), zoom, true).value.f == 0
  {
    BoxFloorIsTileFloor(scale, scaleHeight, b, zoom);
    var t := BboxToLocalTile(scale, scaleHeight, b, Some(zoom), true).value;
    if t.z > 0 {
      BboxTileHoldsCorners(scale, scaleHeight, b, Some(zoom), true);
      GroundPointFloor(scale, scaleHeight, b.minX, b.minY, b.minF, t.z, t);
      assert t.f == 0;
    }
  }

  /** A point at ground level quantizes to the bottom vertical tile. */
  lemma GroundPointFloor(scale: real, scaleHeight: real, x: real, y: real, alt: real, z: nat, t: XYFZ)
    requires scale != 0.0 && scaleHeight != 0.0 && alt == 0.0
    requires PointToLocalTile(scale, scaleHeight, x, y, alt, z, true) == Ok(t)
    ensures t.f == 0
  {
    AxisTileOfZero(scaleHeight, z, true);
  }

  /** The bounding cell of any geometry is a bottom-layer cell. */
  lemma BoundingSpaceIsGroundLevel(ns: Namespace, geometry: Geometry, env: Env)
    requires Quantizable(ns) && ns.georeferencer.Some?
    ensures BoundingSpaceFromGeoJSON(ns, geometry, env).value.zfxy.f == 0
  {
    var box := LocalBox(ns.georeferencer.value, env.turf.bbox(geometry));
    GroundBoxFloor(ns.scale, ns.scaleHeight, box, DEFAULT_ZOOM);
  }

  /* ---------------------------------------------------------------- */
  /* spacesFromGeoJSON                                                 */
  /* ---------------------------------------------------------------- */

  /** The cells at `zoom` under the bounding cell of the geometry. */
  function CoveringSpaces(ns: Namespace, zoom: int, bounding: Cell, lib: ZfxyLib): (r: seq<Cell>)
    ensures var tiles := lib.getChildrenAtZoom(zoom, bounding.zfxy);
      |r| == |tiles| && forall i :: 0 <= i < |tiles| ==> r[i] == MakeCell(ns, tiles[i], lib)
  {
    Map(lib.getChildrenAtZoom(zoom, bounding.zfxy), (t: ZFXY) => MakeCell(ns, t, lib))
  }

  /** `spacesFromGeoJSON`: of the cells at `zoom` under the bounding cell, those whose
      box polygon intersects the geometry. An origin is required; the first error
      an intersection test raises ends the call. */
  function SpacesFromGeoJSON(ns: Namespace, zoom: int, geometry: Geometry, env: Env): (r: Result<seq<Cell>>)
    requires Quantizable(ns)
    ensures ns.origin.None? ==> r == Err(ConversionNotPossible)
    ensures ns.origin.Some? && ns.georeferencer.None? ==> r == Err(ConversionNotPossible)
    ensures ns.georeferencer.Some? && geometry.kind == GeometryCollection ==>
      var covering := CoveringSpaces(ns, zoom, BoundingSpaceFromGeoJSON(ns, geometry, env).value, env.zfxy);
      (ns.origin.Some? && |covering| > 0 <==> r == Err(UnsupportedGeometry))
    ensures r.Ok? ==>
      var covering := CoveringSpaces(ns, zoom, BoundingSpaceFromGeoJSON(ns, geometry, env).value, env.zfxy);
      && |r.value| <= |covering|
      && forall c :: c in r.value <==>
           c in covering && PackageCells.Intersects(c, GeometryTarget(geometry), env.turf) == Ok(true)
    ensures r.Ok? ==>
      var covering := CoveringSpaces(ns, zoom, BoundingSpaceFromGeoJSON(ns, geometry, env).value, env.zfxy);
      forall c :: multiset(r.value)[c] ==
        if PackageCells.Intersects(c, GeometryTarget(geometry), env.turf) == Ok(true) then multiset(covering)[c] else 0
  {
    if ns.origin.None? then Err(ConversionNotPossible)
    else
      var bounding :- BoundingSpaceFromGeoJSON(ns, geometry, env);
      var covering := CoveringSpaces(ns, zoom, bounding, env.zfxy);
      FilterOk(covering, (c: Cell) => PackageCells.Intersects(c, GeometryTarget(geometry), env.turf))
  }

  /** In an anchored namespace and for any geometry but a collection the call
      succeeds, and a covering cell is kept exactly when turf finds its box polygon
      meeting the geometry. */
  lemma SpacesAreTheIntersectingCells(ns: Namespace, zoom: int, geometry: Geometry, env: Env)
    requires Quantizable(ns) && Anchored(ns) && ns.origin.Some?
    requires geometry.kind != GeometryCollection
    ensures var r := SpacesFromGeoJSON(ns, zoom, geometry, env);
      var covering := CoveringSpaces(ns, zoom, BoundingSpaceFromGeoJSON(ns, geometry, env).value, env.zfxy);
      && r.Ok?
      && forall i :: 0 <= i < |covering| ==>
           (covering[i] in r.value <==>
              env.turf.booleanIntersects(PackageCells.ToGeoJSON(covering[i], env.turf).value, geometry))
  {
    var covering := CoveringSpaces(ns, zoom, BoundingSpaceFromGeoJSON(ns, geometry, env).value, env.zfxy);
    forall i | 0 <= i < |covering|
      ensures PackageCells.Intersects(covering[i], GeometryTarget(geometry), env.turf).Ok?
    {
      assert covering[i].namespace == ns;
    }
  }

  /** When turf finds every covering cell meeting the geometry, `spacesFromGeoJSON`
      returns the covering cells themselves, in the order `getChildrenAtZoom` lists
      their tiles. */
  lemma SpacesKeepAllInOrder(ns: Namespace, zoom: int, geometry: Geometry, env: Env)
    requires Quantizable(ns)
    ensures Anchored(ns) && ns.origin.Some? && geometry.kind != GeometryCollection ==>
      var covering := CoveringSpaces(ns, zoom, BoundingSpaceFromGeoJSON(ns, geometry, env).value, env.zfxy);
      (forall i :: 0 <= i < |covering| ==>
         env.turf.booleanIntersects(PackageCells.ToGeoJSON(covering[i], env.turf).value, geometry)) ==>
        SpacesFromGeoJSON(ns, zoom, geometry, env) == Ok(covering)
  {
    if Anchored(ns) && ns.origin.Some? && geometry.kind != GeometryCollection {
      var covering := CoveringSpaces(ns, zoom, BoundingSpaceFromGeoJSON(ns, geometry, env).value, env.zfxy);
      if forall i :: 0 <= i < |covering| ==>
           env.turf.booleanIntersects(PackageCells.ToGeoJSON(covering[i], env.turf).value, geometry) {
        CellsAllKept(ns, covering, geometry, env.turf);
      }
    }
  }

  /** The filter of `spacesFromGeoJSON` keeps a list of cells of a georeferenced
      namespace whose every box polygon meets the geometry. */
  lemma CellsAllKept(ns: Namespace, cells: seq<Cell>, geometry: Geometry, turf: Turf)
    requires ns.georeferencer.Some? && geometry.kind != GeometryCollection
    requires forall i :: 0 <= i < |cells| ==> cells[i].namespace == ns
    requires forall i :: 0 <= i < |cells| ==>
      turf.booleanIntersects(PackageCells.ToGeoJSON(cells[i], turf).value, geometry)
    ensures FilterOk(cells, (c: Cell) => PackageCells.Intersects(c, GeometryTarget(geometry), turf)) == Ok(cells)
  {
    var p := (c: Cell) => PackageCells.Intersects(c, GeometryTarget(geometry), turf);
    forall i | 0 <= i < |cells|
      ensures Kept(p)(cells[i])
    {
      assert cells[i].namespace == ns;
    }
    FilterKeepsAll(cells, Kept(p));
  }
}

=== FILE: namespaces.dfy ===
/** `LocalNamespace` (src/local_namespace.ts): a local space of a given scale,
    optionally anchored to the globe by an origin and its georeferencer. */
module Namespaces {
  import opened Failures
  import opened Externals

  /** `OriginSettings`: the anchor point and rotation of the local space. */
  datatype Origin = Origin(latitude: real, longitude: real, altitude: real, angle: real)

  /** A namespace. `scaleHeight` is the vertical extent the demo cells read as
      `scale_height`. The package `LocalNamespace` has no such field; `NewNamespace`
      sets `scaleHeight` to `scale`. */
  datatype Namespace = Namespace(
    id: string,
    scale: real,
    scaleHeight: real,
    name: Option<string>,
    description: Option<string>,
    origin: Option<Origin>,
    georeferencer: Option<Georeferencer>)

  /** `LocalNamespaceOptions`: every field but `scale` may be left undefined. */
  datatype NamespaceOptions = NamespaceOptions(
    id: Option<string>,
    scale: real,
    name: Option<string>,
    description: Option<string>,
    originLatitude: Option<real>,
    originLongitude: Option<real>,
    originAltitude: Option<real>,
    originAngle: Option<real>)

  /** ECMAScript truthiness of an optional number: defined and non-zero. */
  predicate Truthy(v: Option<real>) {
    v.Some? && v.value != 0.0
  }

  /** `v || 0`. */
  function OrZero(v: Option<real>): (r: real)
    ensures Truthy(v) ==> r == v.value
    ensures !Truthy(v) ==> r == 0.0
  {
    if Truthy(v) then v.value else 0.0
  }

  /** The invariant every constructed namespace keeps: it has a georeferencer
      exactly when it has an origin. */
  predicate Anchored(ns: Namespace) {
    ns.georeferencer.Some? <==> ns.origin.Some?
  }

  /** The constructor. `uuid` stands for `crypto.randomUUID()` and `makeGeoreferencer`
      for `new OriginGeodesicTransformer({x: longitude, y: latitude}, angle)`. */
  function NewNamespace(options: NamespaceOptions, uuid: string, makeGeoreferencer: (Point, real) -> Georeferencer): (ns: Namespace)
    ensures Anchored(ns)
    ensures options.id.Some? ==> ns.id == options.id.value
    ensures options.id.None? ==> ns.id == uuid
    ensures ns.scale == options.scale && ns.scaleHeight == options.scale
    ensures ns.name == options.name && ns.description == options.description
    ensures ns.origin.Some? <==> Truthy(options.originLatitude) && Truthy(options.originLongitude)
    ensures ns.origin.Some? ==>
      && ns.origin.value.latitude == options.originLatitude.value
      && ns.origin.value.longitude == options.originLongitude.value
      && ns.origin.value.altitude == OrZero(options.originAltitude)
      && ns.origin.value.angle == OrZero(options.originAngle)
      && ns.georeferencer == Some(makeGeoreferencer(
           Point(ns.origin.value.longitude, ns.origin.value.latitude), ns.origin.value.angle))
  {
    var id := if options.id.Some? then options.id.value else uuid;
    if Truthy(options.originLatitude) && Truthy(options.originLongitude) then
      var o := Origin(options.originLatitude.value, options.originLongitude.value,
                      OrZero(options.originAltitude), OrZero(options.originAngle));
      Namespace(id, options.scale, options.scale, options.name, options.description,
                Some(o), Some(makeGeoreferencer(Point(o.longitude, o.latitude), o.angle)))
    else
      Namespace(id, options.scale, options.scale, options.name, options.description, None, None)
  }

  /** A latitude (or longitude) of exactly 0 is falsy and leaves the namespace unanchored. */
  lemma ZeroLatitudeLeavesNoOrigin(options: NamespaceOptions, uuid: string, makeGeoreferencer: (Point, real) -> Georeferencer)
    requires options.originLatitude == Some(0.0) || options.originLongitude == Some(0.0)
    ensures NewNamespace(options, uuid, makeGeoreferencer).origin.None?
    ensures NewNamespace(options, uuid, makeGeoreferencer).georeferencer.None?
  {
  }

  /** An empty id is still an id: `??` only replaces an undefined one. */
  lemma EmptyIdIsKept(options: NamespaceOptions, uuid: string, makeGeoreferencer: (Point, real) -> Georeferencer)
    requires options.id == Some("")
    ensures NewNamespace(options, uuid, makeGeoreferencer).id == ""
  {
  }

  /** The expectations of src/local_namespace.test.ts. */
  lemma NamespaceExamples(uuid: string, makeGeoreferencer: (Point, real) -> Georeferencer)
    ensures var ns := NewNamespace(NamespaceOptions(None, 1.0, None, None, None, None, None, None), uuid, makeGeoreferencer);
      ns.scale == 1.0 && ns.origin.None? && ns.georeferencer.None?
    ensures var ns := NewNamespace(NamespaceOptions(None, 1.0, None, None, Some(35.0), Some(135.0), None, None), uuid, makeGeoreferencer);
      ns.scale == 1.0 && ns.origin == Some(Origin(35.0, 135.0, 0.0, 0.0))
  {
  }
}

=== FILE: package_cells.dfy ===
/** The package revision of `LocalSpatialId` (src/local_spatial_id.ts): the
    origin sits at the centre of the root tile, the WGS84 box is read off two
    georeferenced corners, and the footprint polygon is that box's polygon.
    Construction, moves, children and `contains` on cells are those of `Cells`. */
module PackageCells {
  import opened Failures
  import opened Bits
  import opened Tilebelt
  import opened TilebeltLocal
  import opened Externals
  import opened Namespaces
  import opened Cells
  import DemoCells

  /* ---------------------------------------------------------------- */
  /* parent                                                            */
  /* ---------------------------------------------------------------- */

  /** `parent(atZoom)`: one step by default, else `z - atZoom` steps, with no check
      that `atZoom` is above the cell. */
  function Parent(c: Cell, atZoom: Option<int>, lib: ZfxyLib): (r: Cell)
    ensures r.namespace == c.namespace && Regenerated(r, lib)
    ensures r.zfxy == lib.getParent(c.zfxy, if atZoom.None? then 1 else c.zfxy.z - atZoom.value)
  {
    var steps := if atZoom.None? then 1 else c.zfxy.z - atZoom.value;
    MakeCell(c.namespace, lib.getParent(c.zfxy, steps), lib)
  }

  /** The two revisions agree wherever the demo accepts the zoom; the package only
      drops the demo's refusal of a deeper `atZoom`. */
  lemma ParentAgreesWithDemo(c: Cell, atZoom: Option<int>, lib: ZfxyLib)
    ensures atZoom.None? || atZoom.value <= c.zfxy.z <==> DemoCells.Parent(c, atZoom, lib) == Ok(Parent(c, atZoom, lib))
  {
  }

  /* ---------------------------------------------------------------- */
  /* Centred corners                                                   */
  /* ---------------------------------------------------------------- */

  /** The corners `toWGS84BBox` georeferences: the demo's corners moved so that the
      origin is the centre of the root tile, `x*m - s/2` and `-(y*m - s/2)`. */
  function CentredCorners(c: Cell): (k: DemoCells.Corners)
    ensures var m := Tile2Meters(c.namespace.scale, c.zfxy.z);
      k.x1 - k.x0 == m && k.y0 - k.y1 == m
  {
    var s := c.namespace.scale;
    var m := Tile2Meters(s, c.zfxy.z);
    DemoCells.Corners(
      (c.zfxy.x as real) * m - s / 2.0,
      0.0 - ((c.zfxy.y as real) * m - s / 2.0),
      (c.zfxy.x as real + 1.0) * m - s / 2.0,
      0.0 - ((c.zfxy.y as real + 1.0) * m - s / 2.0))
  }

  /** The package corners are the demo corners shifted by half the root tile west
      and north. */
  lemma CentredIsShifted(c: Cell)
    ensures var k := DemoCells.LocalCorners(c);
      var h := c.namespace.scale / 2.0;
      CentredCorners(c) == DemoCells.Corners(k.x0 - h, k.y0 + h, k.x1 - h, k.y1 + h)
  {
  }

  /** The root tile is centred on the origin. */
  lemma RootCentred(c: Cell)
    requires c.zfxy == ZFXY(0, 0, 0, 0)
    ensures var h := c.namespace.scale / 2.0;
      CentredCorners(c) == DemoCells.Corners(-h, h, h, -h)
  {
    Tile2MetersAtRoot(c.namespace.scale);
  }

  /** One corner axis of a tile of the root cube stays within `[-s/2, s/2]`. */
  lemma CentredAxisInRoot(k: int, z: nat, s: real)
    requires s > 0.0 && 0 <= k < Pow2(z)
    ensures var m := Tile2Meters(s, z);
      -(s / 2.0) <= (k as real) * m - s / 2.0 && (k as real + 1.0) * m - s / 2.0 <= s / 2.0
  {
    var m := Tile2Meters(s, z);
    Tile2MetersTimesPow2(s, z);
    Tile2MetersPositive(s, z);
    EdgeWithinRoot(m, s, k, Pow2(z) as real);
    CentredFromEdge(m, s, k);
  }

  /** `tile2meters` times the number of tiles per axis gives back the scale. */
  lemma Tile2MetersTimesPow2(s: real, z: nat)
    ensures Tile2Meters(s, z) * (Pow2(z) as real) == s
  {
    assert Exp2(z) == Pow2(z) as real;
  }

  /** Shifting an edge of `[0, s]` by `-s/2` lands it in `[-s/2, s/2]`. */
  lemma CentredFromEdge(m: real, s: real, k: int)
    requires 0.0 <= (k as real) * m && (k as real + 1.0) * m <= s
    ensures -(s / 2.0) <= (k as real) * m - s / 2.0 && (k as real + 1.0) * m - s / 2.0 <= s / 2.0
  {
  }

  /** The edge `[k*m, (k+1)*m]` of one of the `p` tiles of length `m` lies in `[0, m*p]`. */
  lemma EdgeWithinRoot(m: real, s: real, k: int, p: real)
    requires m > 0.0 && m * p == s && 0 <= k && (k as real) + 1.0 <= p
    ensures 0.0 <= (k as real) * m && (k as real + 1.0) * m <= s
  {
    MulLeReal(m, 0.0, k as real);
    MulLeReal(m, k as real + 1.0, p);
    assert (k as real + 1.0) * m == m * (k as real + 1.0);
    assert (k as real) * m == m * (k as real);
  }

  /** Every tile of the root cube keeps its corners inside the root square. */
  lemma CentredCornersInRoot(c: Cell)
    requires c.namespace.scale > 0.0 && InRange(c.zfxy)
    ensures var k := CentredCorners(c);
      var h := c.namespace.scale / 2.0;
      -h <= k.x0 && k.x1 <= h && k.y0 <= h && -h <= k.y1
  {
    CentredXInRoot(c);
    CentredYInRoot(c);
  }

  lemma CentredXInRoot(c: Cell)
    requires c.namespace.scale > 0.0 && InRange(c.zfxy)
    ensures -(c.namespace.scale / 2.0) <= CentredCorners(c).x0 && CentredCorners(c).x1 <= c.namespace.scale / 2.0
  {
    CentredAxisInRoot(c.zfxy.x, c.zfxy.z, c.namespace.scale);
  }

  lemma CentredYInRoot(c: Cell)
    requires c.namespace.scale > 0.0 && InRange(c.zfxy)
    ensures CentredCorners(c).y0 <= c.namespace.scale / 2.0 && -(c.namespace.scale / 2.0) <= CentredCorners(c).y1
  {
    CentredAxisInRoot(c.zfxy.y, c.zfxy.z, c.namespace.scale);
  }

  /* ---------------------------------------------------------------- */
  /* WGS84 bounding boxes                                              */
  /* ---------------------------------------------------------------- */

  /** The planar part of `toWGS84BBox`: the top-left and bottom-right corners
      georeferenced, read as `[p0.x, p1.y, p1.x, p0.y]` because the y axis is flipped. */
  function PlanarBox(c: Cell, g: Georeferencer): (r: BBox2D)
    ensures var k := CentredCorners(c);
      && r.minX == g.transform(Point(k.x0, k.y0)).x && r.maxY == g.transform(Point(k.x0, k.y0)).y
      && r.maxX == g.transform(Point(k.x1, k.y1)).x && r.minY == g.transform(Point(k.x1, k.y1)).y
  {
    var k := CentredCorners(c);
    var p0 := g.transform(Point(k.x0, k.y0));
    var p1 := g.transform(Point(k.x1, k.y1));
    BBox2D(p0.x, p1.y, p1.x, p0.y)
  }

  /** The altitude band `toWGS84BBox` writes: `[f*scale, (f+1)*scale]`, which does
      not shrink with the zoom. */
  function AsWrittenBand(scale: real, f: int): (b: DemoCells.Band)
    ensures b.lo == (f as real) * scale
    ensures b.hi - b.lo == scale
  {
    DemoCells.Band((f as real) * scale, (f as real + 1.0) * scale)
  }

  /** The altitude band of the `f`-th vertical tile at zoom `z`, measured from 0 in
      tiles of `tile2meters(scale, z)`, as the horizontal axes are. */
  function CorrectedBand(scale: real, f: int, z: int): (b: DemoCells.Band)
    ensures b == DemoCells.VerticalBand(0.0, scale, f, z)
  {
    var m := Tile2Meters(scale, z);
    DemoCells.Band((f as real) * m, (f as real + 1.0) * m)
  }

  /** `toWGS84BBox` as the package writes it: the georeferenced centred corners,
      and altitudes `f*scale` and `(f+1)*scale`. */
  function ToWGS84BBox(c: Cell): (r: Result<BBox3D>)
    ensures r.Err? <==> c.namespace.georeferencer.None?
    ensures r.Err? ==> r.error == ConversionNotPossible
    ensures r.Ok? ==>
      BBox2D(r.value.minX, r.value.minY, r.value.maxX, r.value.maxY) == PlanarBox(c, c.namespace.georeferencer.value)
    ensures r.Ok? ==>
      && r.value.minF == (c.zfxy.f as real) * c.namespace.scale
      && r.value.maxF == (c.zfxy.f as real + 1.0) * c.namespace.scale
    ensures r.Ok? ==> r.value.maxF - r.value.minF == c.namespace.scale
  {
    match c.namespace.georeferencer
    case None => Err(ConversionNotPossible)
    case Some(g) =>
      var b := PlanarBox(c, g);
      var band := AsWrittenBand(c.namespace.scale, c.zfxy.f);
      Ok(BBox3D(b.minX, b.minY, band.lo, b.maxX, b.maxY, band.hi))
  }

  /** `toWGS84BBox` with the vertical band scaled to the cell's zoom: altitudes
      `f*m` and `(f+1)*m` with `m = tile2meters(scale, z)`. */
  function ToWGS84BBoxCorrected(c: Cell): (r: Result<BBox3D>)
    ensures r.Err? <==> c.namespace.georeferencer.None?
    ensures r.Err? ==> r.error == ConversionNotPossible
    ensures r.Ok? ==>
      BBox2D(r.value.minX, r.value.minY, r.value.maxX, r.value.maxY) == PlanarBox(c, c.namespace.georeferencer.value)
    ensures r.Ok? ==>
      var m := Tile2Meters(c.namespace.scale, c.zfxy.z);
      r.value.minF == (c.zfxy.f as real) * m && r.value.maxF == (c.zfxy.f as real + 1.0) * m
    ensures r.Ok? ==> r.value.maxF - r.value.minF == Tile2Meters(c.namespace.scale, c.zfxy.z)
  {
    match c.namespace.georeferencer
    case None => Err(ConversionNotPossible)
    case Some(g) =>
      var b := PlanarBox(c, g);
      var band := CorrectedBand(c.namespace.scale, c.zfxy.f, c.zfxy.z);
      Ok(BBox3D(b.minX, b.minY, band.lo, b.maxX, b.maxY, band.hi))
  }

  /** The two versions differ only in the altitude band, and agree on the root tile. */
  lemma BBoxVersionsAgree(c: Cell)
    ensures ToWGS84BBox(c).Ok? <==> ToWGS84BBoxCorrected(c).Ok?
    ensures ToWGS84BBoxCorrected(c).Ok? ==>
      ToWGS84BBox(c).value.(minF := 0.0, maxF := 0.0) == ToWGS84BBoxCorrected(c).value.(minF := 0.0, maxF := 0.0)
    ensures ToWGS84BBoxCorrected(c).Ok? && c.zfxy.z == 0 ==> ToWGS84BBox(c) == ToWGS84BBoxCorrected(c)
  {
    if c.zfxy.z == 0 {
      Tile2MetersAtRoot(c.namespace.scale);
      assert CorrectedBand(c.namespace.scale, c.zfxy.f, c.zfxy.z) == AsWrittenBand(c.namespace.scale, c.zfxy.f);
    }
  }

  /** As written, the band of the upper child of vertical tile `f` reaches above the
      band of `f` itself: the child's box is not inside its parent's. */
  lemma AsWrittenChildEscapes(scale: real, f: int)
    requires scale > 0.0 && f >= 0
    ensures AsWrittenBand(scale, 2 * f + 1).hi > AsWrittenBand(scale, f).hi
  {
    MulLtReal(scale, f as real + 1.0, 2.0 * (f as real) + 2.0);
    assert (f as real + 1.0) * scale == scale * (f as real + 1.0);
    assert ((2 * f + 1) as real + 1.0) * scale == scale * (2.0 * (f as real) + 2.0);
  }

  /** The concrete case: scale 1, the cell `/1/1/0/0` gets the band `[1, 2]` and
      its parent `/0/0/0/0` the band `[0, 1]`; corrected, the child gets `[0.5, 1]`. */
  lemma AsWrittenCounterexample(g: Georeferencer, lib: ZfxyLib)
    ensures var ns := Namespace("", 1.0, 1.0, None, None, Some(Origin(35.0, 135.0, 0.0, 0.0)), Some(g));
      var child := MakeCell(ns, ZFXY(1, 1, 0, 0), lib);
      var parent := MakeCell(ns, ZFXY(0, 0, 0, 0), lib);
      && ToWGS84BBox(child).value.minF == 1.0 && ToWGS84BBox(child).value.maxF == 2.0
      && ToWGS84BBox(parent).value.minF == 0.0 && ToWGS84BBox(parent).value.maxF == 1.0
      && ToWGS84BBoxCorrected(child).value.minF == 0.5 && ToWGS84BBoxCorrected(child).value.maxF == 1.0
  {
    Tile2MetersExamples();
  }

  /** Corrected, the band of every vertical child lies inside its parent's. */
  lemma CorrectedChildNests(scale: real, f: int, z: int, f': int)
    requires scale > 0.0 && (f' == 2 * f || f' == 2 * f + 1)
    ensures CorrectedBand(scale, f, z).lo <= CorrectedBand(scale, f', z + 1).lo
    ensures CorrectedBand(scale, f', z + 1).hi <= CorrectedBand(scale, f, z).hi
  {
    DemoCells.BandNests(0.0, scale, f, z, f');
  }

  /** `toWGS84BBox2D`: the box without its altitudes, which is the same under
      either version of the band. */
  function ToWGS84BBox2D(c: Cell): (r: Result<BBox2D>)
    ensures r.Err? <==> c.namespace.georeferencer.None?
    ensures r.Err? ==> r.error == ConversionNotPossible
    ensures r.Ok? ==>
      var b := ToWGS84BBox(c).value;
      r.value == BBox2D(b.minX, b.minY, b.maxX, b.maxY)
    ensures r.Ok? ==>
      var b := ToWGS84BBoxCorrected(c).value;
      r.value == BBox2D(b.minX, b.minY, b.maxX, b.maxY)
  {
    var b :- ToWGS84BBox(c);
    Ok(BBox2D(b.minX, b.minY, b.maxX, b.maxY))
  }
  /** The plan box does not depend on `f`. */
  lemma BBox2DIgnoresF(c: Cell, d: Cell)
    requires c.namespace == d.namespace && c.zfxy.(f := 0) == d.zfxy.(f := 0)
    ensures ToWGS84BBox2D(c) == ToWGS84BBox2D(d)
  {
    assert c.zfxy.x == d.zfxy.x && c.zfxy.y == d.zfxy.y && c.zfxy.z == d.zfxy.z;
    assert CentredCorners(c) == CentredCorners(d);
  }

  /** `toGeoJSON`: the polygon of the plan box. */
  function ToGeoJSON(c: Cell, turf: Turf): (r: Result<Geometry>)
    ensures r.Err? <==> c.namespace.georeferencer.None?
    ensures r.Err? ==> r.error == ConversionNotPossible
    ensures r.Ok? ==> r.value == turf.bboxPolygon(ToWGS84BBox2D(c).value)
  {
    var b :- ToWGS84BBox2D(c);
    Ok(turf.bboxPolygon(b))
  }

  /* ---------------------------------------------------------------- */
  /* contains / intersects                                             */
  /* ---------------------------------------------------------------- */

  /** `contains`: for a cell, the id and tilehash test; for a geometry, the plan box
      is built first, then a GeometryCollection is refused, then turf decides. */
  function Contains(c: Cell, target: Target, turf: Turf): (r: Result<bool>)
    ensures target.CellTarget? ==> r == Ok(ContainsCell(c, target.cell))
    ensures target.GeometryTarget? && c.namespace.georeferencer.None? ==> r == Err(ConversionNotPossible)
    ensures target.GeometryTarget? && c.namespace.georeferencer.Some? && target.geometry.kind == GeometryCollection
      ==> r == Err(UnsupportedGeometry)
    ensures target.GeometryTarget? && c.namespace.georeferencer.Some? && target.geometry.kind != GeometryCollection
      ==> r == Ok(turf.booleanContains(ToGeoJSON(c, turf).value, target.geometry))
  {
    match target
    case CellTarget(other) => Ok(ContainsCell(c, other))
    case GeometryTarget(g) =>
      var b :- ToWGS84BBox2D(c);
      if g.kind == GeometryCollection then Err(UnsupportedGeometry)
      else Ok(turf.booleanContains(turf.bboxPolygon(b), g))
  }

  /** `intersects`: not implemented between cells; for a geometry, as `contains`. */
  function Intersects(c: Cell, target: Target, turf: Turf): (r: Result<bool>)
    ensures target.CellTarget? ==> r == Err(NotImplemented)
    ensures target.GeometryTarget? && c.namespace.georeferencer.None? ==> r == Err(ConversionNotPossible)
    ensures target.GeometryTarget? && c.namespace.georeferencer.Some? && target.geometry.kind == GeometryCollection
      ==> r == Err(UnsupportedGeometry)
    ensures target.GeometryTarget? && c.namespace.georeferencer.Some? && target.geometry.kind != GeometryCollection
      ==> r == Ok(turf.booleanIntersects(ToGeoJSON(c, turf).value, target.geometry))
  {
    match target
    case CellTarget(_) => Err(NotImplemented)
    case GeometryTarget(g) =>
      var b :- ToWGS84BBox2D(c);
      if g.kind == GeometryCollection then Err(UnsupportedGeometry)
      else Ok(turf.booleanIntersects(turf.bboxPolygon(b), g))
  }

  /** Between cells both revisions answer alike: `contains` by the tilehash test and
      `intersects` with the same refusal. */
  lemma CellQueriesAgreeWithDemo(c: Cell, other: Cell, turf: Turf)
    ensures Contains(c, CellTarget(other), turf) == DemoCells.Contains(c, CellTarget(other), turf)
    ensures Intersects(c, CellTarget(other), turf) == DemoCells.Intersects(c, CellTarget(other), turf)
  {
  }

  /* ---------------------------------------------------------------- */
  /* Global Spatial IDs                                                */
  /* ---------------------------------------------------------------- */

  /** `toContainingGlobalSpatialId`: the global space of the smallest tile holding
      the WGS84 box, with its altitudes as written. */
  function ToContainingGlobalSpatialId(c: Cell, env: Env): (r: Result<Space>)
    ensures r.Err? <==> c.namespace.georeferencer.None?
    ensures r.Err? ==> r.error == ConversionNotPossible
    ensures r.Ok? ==> r.value == env.sdk.space(DemoCells.GlobalTile(ToWGS84BBox(c).value, env.sdk))
  {
    var b :- ToWGS84BBox(c);
    Ok(env.sdk.space(DemoCells.GlobalTile(b, env.sdk)))
  }

  /** `toGlobalSpatialIds(zoom)`: one global space per descendant of the containing
      tile at `zoom`, in order and unfiltered. */
  function ToGlobalSpatialIds(c: Cell, zoom: int, env: Env): (r: Result<seq<Space>>)
    ensures r.Err? <==> c.namespace.georeferencer.None?
    ensures r.Err? ==> r.error == ConversionNotPossible
    ensures r.Ok? ==>
      var tiles := env.zfxy.getChildrenAtZoom(zoom, DemoCells.GlobalTile(ToWGS84BBox(c).value, env.sdk));
      |r.value| == |tiles| && forall i :: 0 <= i < |tiles| ==> r.value[i] == env.sdk.space(tiles[i])
  {
    var b :- ToWGS84BBox(c);
    Ok(Seqs.Map(env.zfxy.getChildrenAtZoom(zoom, DemoCells.GlobalTile(b, env.sdk)), env.sdk.space))
  }

  /** `toContainingGlobalSpatialId` and `toGlobalSpatialIds` start from one and the
      same tile: the list at any zoom is the spaces of that tile's descendants,
      and the two calls fail together. */
  lemma GlobalIdsUnderContaining(c: Cell, zoom: int, env: Env)
    ensures ToGlobalSpatialIds(c, zoom, env).Err? <==> ToContainingGlobalSpatialId(c, env).Err?
    ensures ToContainingGlobalSpatialId(c, env).Ok? ==>
      exists t: ZFXY :: ToContainingGlobalSpatialId(c, env).value == env.sdk.space(t)
        && ToGlobalSpatialIds(c, zoom, env).value == Seqs.Map(env.zfxy.getChildrenAtZoom(zoom, t), env.sdk.space)
  {
    if c.namespace.georeferencer.Some? {
      var t := DemoCells.GlobalTile(ToWGS84BBox(c).value, env.sdk);
      assert ToGlobalSpatialIds(c, zoom, env).value == Seqs.Map(env.zfxy.getChildrenAtZoom(zoom, t), env.sdk.space);
    }
  }

  /** If `getChildrenAtZoom` gives back the containing tile alone when asked for its
      own zoom, the global ids at that zoom are exactly the containing global id. */
  lemma GlobalIdsAtOwnZoom(c: Cell, env: Env)
    requires c.namespace.georeferencer.Some?
    ensures var t := DemoCells.GlobalTile(ToWGS84BBox(c).value, env.sdk);
      env.zfxy.getChildrenAtZoom(t.z, t) == [t] ==>
        ToGlobalSpatialIds(c, t.z, env) == Ok([ToContainingGlobalSpatialId(c, env).value])
  {
    var t := DemoCells.GlobalTile(ToWGS84BBox(c).value, env.sdk);
    if env.zfxy.getChildrenAtZoom(t.z, t) == [t] {
      var r := ToGlobalSpatialIds(c, t.z, env).value;
      assert |r| == 1 && r[0] == env.sdk.space(t);
      assert r == [env.sdk.space(t)];
    }
  }

  /** `toContainingGlobalSpatialId` over the corrected box. */
  function ToContainingGlobalSpatialIdCorrected(c: Cell, env: Env): (r: Result<Space>)
    ensures r.Err? <==> c.namespace.georeferencer.None?
    ensures r.Err? ==> r.error == ConversionNotPossible
    ensures r.Ok? ==> r.value == env.sdk.space(DemoCells.GlobalTile(ToWGS84BBoxCorrected(c).value, env.sdk))
  {
    var b :- ToWGS84BBoxCorrected(c);
    Ok(env.sdk.space(DemoCells.GlobalTile(b, env.sdk)))
  }

  /** `toGlobalSpatialIds(zoom)` over the corrected box. */
  function ToGlobalSpatialIdsCorrected(c: Cell, zoom: int, env: Env): (r: Result<seq<Space>>)
    ensures r.Err? <==> c.namespace.georeferencer.None?
    ensures r.Err? ==> r.error == ConversionNotPossible
    ensures r.Ok? ==>
      var tiles := env.zfxy.getChildrenAtZoom(zoom, DemoCells.GlobalTile(ToWGS84BBoxCorrected(c).value, env.sdk));
      |r.value| == |tiles| && forall i :: 0 <= i < |tiles| ==> r.value[i] == env.sdk.space(tiles[i])
  {
    var b :- ToWGS84BBoxCorrected(c);
    Ok(Seqs.Map(env.zfxy.getChildrenAtZoom(zoom, DemoCells.GlobalTile(b, env.sdk)), env.sdk.space))
  }

  /** On the root tile the corrected global ids are those of the box as written. */
  lemma GlobalIdsAgreeAtRoot(c: Cell, zoom: int, env: Env)
    requires c.zfxy.z == 0
    ensures ToContainingGlobalSpatialIdCorrected(c, env) == ToContainingGlobalSpatialId(c, env)
    ensures ToGlobalSpatialIdsCorrected(c, zoom, env) == ToGlobalSpatialIds(c, zoom, env)
  {
    BBoxVersionsAgree(c);
  }
}

=== FILE: seqs.dfy ===
/** `Array.prototype.filter` with a predicate that may throw: the elements are
    tested left to right and the first exception ends the whole call. */
module Seqs {
  import opened Failures

  function FilterOk<T(!new)>(s: seq<T>, p: T -> Result<bool>): (r: Result<seq<T>>)
    ensures r.Ok? <==> forall i :: 0 <= i < |s| ==> p(s[i]).Ok?
    ensures r.Ok? ==> r.value == Filter(s, Kept(p))
    ensures r.Ok? ==> |r.value| <= |s|
    ensures r.Ok? ==> forall x :: x in r.value <==> x in s && p(x) == Ok(true)
    ensures r.Ok? ==> forall x :: multiset(r.value)[x] == if p(x) == Ok(true) then multiset(s)[x] else 0
    ensures r.Err? ==> exists i :: (0 <= i < |s| && p(s[i]) == Err(r.error)
      && forall j :: 0 <= j < i ==> p(s[j]).Ok?)
  {
    if |s| == 0 then Ok([])
    else
      var keep :- p(s[0]);
      var rest :- FilterOk(s[1..], p);
      FilterCons(s, Kept(p));
      FilterMultiset(s, Kept(p));
      Ok(if keep then [s[0]] + rest else rest)
  }

  /** The elements a throwing predicate keeps: those it answers `true` for. */
  function Kept<T(!new)>(p: T -> Result<bool>): (q: T -> bool)
    ensures forall x :: q(x) <==> p(x) == Ok(true)
  {
    x => p(x) == Ok(true)
  }

  /** `Array.prototype.filter` with a total predicate. */
  function Filter<T(!new)>(s: seq<T>, p: T -> bool): (r: seq<T>)
    ensures |r| <= |s|
    ensures forall x :: x in r <==> x in s && p(x)
  {
    if |s| == 0 then []
    else
      var rest := Filter(s[1..], p);
      assert forall x :: x in s <==> x == s[0] || x in s[1..];
      assert s == [s[0]] + s[1..];
      if p(s[0]) then [s[0]] + rest else rest
  }

  /** Each element is kept as often as it occurs, or dropped every time: the
      filter keeps duplicates. */
  lemma {:induction false} FilterMultiset<T(!new)>(s: seq<T>, p: T -> bool)
    ensures forall x :: multiset(Filter(s, p))[x] == if p(x) then multiset(s)[x] else 0
  {
    if |s| != 0 {
      FilterMultiset(s[1..], p);
      FilterCons(s, p);
      assert s == [s[0]] + s[1..];
    }
  }

  /** A one-element list is kept or dropped whole. */
  lemma FilterSingle<T(!new)>(x: T, p: T -> bool)
    ensures Filter([x], p) == if p(x) then [x] else []
  {
    assert [x][1..] == [];
  }

  /** Filtering a concatenation filters each part and keeps them in order: the
      kept elements stay in their original order. */
  lemma {:induction false} FilterAppend<T(!new)>(s: seq<T>, t: seq<T>, p: T -> bool)
    ensures Filter(s + t, p) == Filter(s, p) + Filter(t, p)
  {
    if |s| == 0 {
      assert s + t == t;
    } else {
      FilterAppend(s[1..], t, p);
      FilterAppendStep(s, t, p);
    }
  }

  /** The inductive step of `FilterAppend`: the first element of `s` goes ahead
      of both filtered parts. */
  lemma FilterAppendStep<T(!new)>(s: seq<T>, t: seq<T>, p: T -> bool)
    requires |s| > 0
    requires Filter(s[1..] + t, p) == Filter(s[1..], p) + Filter(t, p)
    ensures Filter(s + t, p) == Filter(s, p) + Filter(t, p)
  {
    FilterConsAppend(s, t, p);
    FilterCons(s, p);
    ConsAssoc(if p(s[0]) then [s[0]] else [], Filter(s[1..], p), Filter(t, p));
  }

  /** `FilterCons` for a concatenation whose first part is not empty. */
  lemma FilterConsAppend<T(!new)>(s: seq<T>, t: seq<T>, p: T -> bool)
    requires |s| > 0
    ensures Filter(s + t, p) == (if p(s[0]) then [s[0]] else []) + Filter(s[1..] + t, p)
  {
    var u := s + t;
    assert u[0] == s[0] && u[1..] == s[1..] + t;
    FilterCons(u, p);
  }

  lemma ConsAssoc<T>(h: seq<T>, a: seq<T>, b: seq<T>)
    ensures h + (a + b) == (h + a) + b
  {
  }

  /** The first element is decided alone, ahead of the rest. */
  lemma FilterCons<T(!new)>(s: seq<T>, p: T -> bool)
    requires |s| > 0
    ensures Filter(s, p) == (if p(s[0]) then [s[0]] else []) + Filter(s[1..], p)
  {
  }

  /** When every element passes, the filter keeps the whole list, in order. */
  lemma {:induction false} FilterKeepsAll<T(!new)>(s: seq<T>, p: T -> bool)
    requires forall i :: 0 <= i < |s| ==> p(s[i])
    ensures Filter(s, p) == s
  {
    if |s| != 0 {
      FilterKeepsAll(s[1..], p);
      assert s == [s[0]] + s[1..];
    }
  }

  /** `Array.prototype.map`. */
  function Map<T, U>(s: seq<T>, f: T -> U): (r: seq<U>)
    ensures |r| == |s|
    ensures forall i :: 0 <= i < |s| ==> r[i] == f(s[i])
  {
    seq(|s|, i requires 0 <= i < |s| => f(s[i]))
  }
}

=== FILE: tilebelt.dfy ===
/** Tile arrays, the bit-prefix zoom search and the bounding-box-to-tile
    reduction shared by the global tilebelt and its local variant
    (src/lib/tilebelt.ts). */
module Tilebelt {
  import opened Bits
  import opened Failures

  const MAX_ZOOM: nat := 28

  /** A `ZFXYTile` object `{z, f, x, y}`. */
  datatype ZFXY = ZFXY(z: int, f: int, x: int, y: int)

  /** An `XYFZTile` array `[x, y, f, z]` with integral entries. */
  datatype XYFZ = XYFZ(x: int, y: int, f: int, z: int)

  /** An `XYFZTile` array before flooring: fractional tile coordinates. */
  datatype Fraction = Fraction(x: real, y: real, f: real, z: int)

  /** A `BBox3D` array `[minX, minY, minF, maxX, maxY, maxF]`. */
  datatype BBox3D = BBox3D(minX: real, minY: real, minF: real, maxX: real, maxY: real, maxF: real)

  /** The same six-entry array once both corners are quantized at zoom 32. */
  datatype CornerBox = CornerBox(minX: int, minY: int, minF: int, maxX: int, maxY: int, maxF: int)

  const Root := XYFZ(0, 0, 0, 0)

  function XyfzTileAryToObj(t: XYFZ): (r: ZFXY)
    ensures r.x == t.x && r.y == t.y && r.f == t.f && r.z == t.z
  {
    ZFXY(t.z, t.f, t.x, t.y)
  }

  /** The inverse conversion, object to array. */
  function ZfxyToAry(t: ZFXY): (r: XYFZ)
    ensures r.x == t.x && r.y == t.y && r.f == t.f && r.z == t.z
  {
    XYFZ(t.x, t.y, t.f, t.z)
  }

  lemma AryObjRoundTrip(a: XYFZ, o: ZFXY)
    ensures ZfxyToAry(XyfzTileAryToObj(a)) == a
    ensures XyfzTileAryToObj(ZfxyToAry(o)) == o
  {
  }

  /* ---------------------------------------------------------------- */
  /* Zoom search over the bits of the quantized corners                */
  /* ---------------------------------------------------------------- */

  /** At zoom `z` the mask `1 << (31 - z)` sees a different bit in the min
      and max corner on some axis. */
  predicate DivergesAt(q: CornerBox, z: nat)
    requires z < 32
  {
    || Bit(ToUint32(q.minX), 31 - z) != Bit(ToUint32(q.maxX), 31 - z)
    || Bit(ToUint32(q.minY), 31 - z) != Bit(ToUint32(q.maxY), 31 - z)
    || Bit(ToUint32(q.minF), 31 - z) != Bit(ToUint32(q.maxF), 31 - z)
  }

  function BboxZoomFrom(q: CornerBox, z: nat): (r: nat)
    requires z <= MAX_ZOOM
    ensures z <= r <= MAX_ZOOM
    ensures forall k :: z <= k < r ==> !DivergesAt(q, k)
    ensures r < MAX_ZOOM ==> DivergesAt(q, r)
    decreases MAX_ZOOM - z
  {
    if z == MAX_ZOOM then MAX_ZOOM
    else if DivergesAt(q, z) then z
    else BboxZoomFrom(q, z + 1)
  }

  /** `getBboxZoom`: the first zoom below 28 whose bit differs between the
      corners on some axis, or 28 when none does. */
  function BboxZoom(q: CornerBox): (r: nat)
    ensures r <= MAX_ZOOM
    ensures forall k :: 0 <= k < r ==> !DivergesAt(q, k)
    ensures r < MAX_ZOOM ==> DivergesAt(q, r)
  {
    BboxZoomFrom(q, 0)
  }

  /** The loop of `getBboxZoom` as written. */
  method GetBboxZoom(q: CornerBox) returns (r: nat)
    ensures r <= MAX_ZOOM
    ensures forall k :: 0 <= k < r ==> !DivergesAt(q, k)
    ensures r < MAX_ZOOM ==> DivergesAt(q, r)
  {
    var z := 0;
    while z < MAX_ZOOM
      invariant 0 <= z <= MAX_ZOOM
      invariant forall k :: 0 <= k < z ==> !DivergesAt(q, k)
    {
      if DivergesAt(q, z) {
        return z;
      }
      z := z + 1;
    }
    return MAX_ZOOM;
  }

  /** Both corners fall in one tile at zoom `z`: their top `z` bits agree on every axis. */
  predicate CoversAt(q: CornerBox, z: nat)
    requires z <= 32
  {
    && Prefix(ToUint32(q.minX), 32 - z) == Prefix(ToUint32(q.maxX), 32 - z)
    && Prefix(ToUint32(q.minY), 32 - z) == Prefix(ToUint32(q.maxY), 32 - z)
    && Prefix(ToUint32(q.minF), 32 - z) == Prefix(ToUint32(q.maxF), 32 - z)
  }

  lemma CoversIffNoDivergence(q: CornerBox, z: nat)
    requires z <= 32
    ensures CoversAt(q, z) <==> forall j :: 0 <= j < z ==> !DivergesAt(q, j)
  {
    var s := 32 - z;
    PrefixAgree(ToUint32(q.minX), ToUint32(q.maxX), s);
    PrefixAgree(ToUint32(q.minY), ToUint32(q.maxY), s);
    PrefixAgree(ToUint32(q.minF), ToUint32(q.maxF), s);
    if forall j :: 0 <= j < z ==> !DivergesAt(q, j) {
      forall k | s <= k < 32
        ensures Bit(ToUint32(q.minX), k) == Bit(ToUint32(q.maxX), k)
        ensures Bit(ToUint32(q.minY), k) == Bit(ToUint32(q.maxY), k)
        ensures Bit(ToUint32(q.minF), k) == Bit(ToUint32(q.maxF), k)
      {
        assert !DivergesAt(q, 31 - k);
      }
    }
    if CoversAt(q, z) {
      forall j | 0 <= j < z
        ensures !DivergesAt(q, j)
      {
        assert s <= 31 - j < 32;
      }
    }
  }

  /** `getBboxZoom` is the deepest zoom, up to 28, whose tile holds both corners. */
  lemma {:induction false} BboxZoomIsDeepestCover(q: CornerBox, z: nat)
    requires z <= MAX_ZOOM
    ensures CoversAt(q, z) <==> z <= BboxZoom(q)
  {
    CoversIffNoDivergence(q, z);
    var b := BboxZoom(q);
    if b < z {
      assert DivergesAt(q, b);
    }
  }

  /** A box whose two corners coincide is covered down to the deepest zoom. */
  lemma IdenticalCornersGiveMax(x: int, y: int, f: int)
    ensures BboxZoom(CornerBox(x, y, f, x, y, f)) == MAX_ZOOM
  {
  }

  /** The index of the tile at zoom `t.z` (1..32) holding the zoom-32 point `(x, y, f)`. */
  predicate HoldsCorner(t: XYFZ, x: int, y: int, f: int)
    requires 1 <= t.z <= 32
  {
    && t.x == Prefix(ToUint32(x), 32 - t.z)
    && t.y == Prefix(ToUint32(y), 32 - t.z)
    && t.f == Prefix(ToUint32(f), 32 - t.z)
  }

  /** The common tail of `bboxToTile` and `bboxToLocalTile`: pick the zoom,
      cap it, and shift the min corner right by `32 - z`. */
  function TileFromCorners(q: CornerBox, minZoom: Option<int>): (r: XYFZ)
    ensures r.z <= MAX_ZOOM
    ensures minZoom.Some? ==> r.z <= minZoom.value
    ensures r.z == BboxZoom(q) || (minZoom.Some? && r.z == minZoom.value)
    ensures r.z == 0 ==> r == Root
    ensures 0 < r.z ==> 0 <= r.x < Pow2(r.z) && 0 <= r.y < Pow2(r.z) && 0 <= r.f < Pow2(r.z)
    ensures 0 < r.z ==> HoldsCorner(r, q.minX, q.minY, q.minF) && HoldsCorner(r, q.maxX, q.maxY, q.maxF)
  {
    var cap := if minZoom.Some? then minZoom.value else MAX_ZOOM;
    var z := if BboxZoom(q) <= cap then BboxZoom(q) else cap;
    if z == 0 then Root
    else
      var r := XYFZ(UShr(q.minX, 32 - z), UShr(q.minY, 32 - z), UShr(q.minF, 32 - z), z);
      if 0 < z then CornersShareTile(q, r); r else r
  }

  lemma CornersShareTile(q: CornerBox, r: XYFZ)
    requires 1 <= r.z <= BboxZoom(q)
    requires r.x == UShr(q.minX, 32 - r.z) && r.y == UShr(q.minY, 32 - r.z) && r.f == UShr(q.minF, 32 - r.z)
    ensures 0 <= r.x < Pow2(r.z) && 0 <= r.y < Pow2(r.z) && 0 <= r.f < Pow2(r.z)
    ensures HoldsCorner(r, q.minX, q.minY, q.minF) && HoldsCorner(r, q.maxX, q.maxY, q.maxF)
  {
    UShrIsPrefix(q.minX, r.z);
    UShrIsPrefix(q.minY, r.z);
    UShrIsPrefix(q.minF, r.z);
    BboxZoomIsDeepestCover(q, r.z);
  }

  /** Unless the zoom was capped, one level deeper the corners fall in different tiles:
      the result is the smallest tile holding both. */
  lemma TileFromCornersIsSmallest(q: CornerBox, minZoom: Option<int>)
    ensures var z := TileFromCorners(q, minZoom).z;
      z < MAX_ZOOM && (minZoom.None? || z < minZoom.value) ==>
      z == BboxZoom(q) && !CoversAt(q, z + 1)
  {
    var z := TileFromCorners(q, minZoom).z;
    if z < MAX_ZOOM && (minZoom.None? || z < minZoom.value) {
      BboxZoomIsDeepestCover(q, z + 1);
    }
  }

  /* ---------------------------------------------------------------- */
  /* Global point quantization (x only; y and f are projections)      */
  /* ---------------------------------------------------------------- */

  /** The Web-Mercator y and the altitude f of `pointToTileFraction`, outside this model. */
  datatype TileProjection = TileProjection(tileY: (real, nat) -> real, tileF: (real, nat) -> real)

  /** Truncation toward zero, as ECMAScript's `%` uses. */
  function Trunc(r: real): (t: int)
    ensures r >= 0.0 ==> t == r.Floor
    ensures r < 0.0 ==> t == -((-r).Floor)
  {
    if r >= 0.0 then r.Floor else -((-r).Floor)
  }

  /** `d` is a whole multiple of `n`. */
  predicate IsMultipleOf(d: real, n: real)
    requires n > 0.0
  {
    (d / n).Floor as real == d / n
  }

  function RawTileX(lon: real, z: nat): real {
    Pow2(z) as real * (lon / 360.0 + 0.5)
  }

  /** The JavaScript remainder `raw % n` followed by `+ n` when negative. */
  function WrapRemainder(raw: real, n: real): real
    requires n > 0.0
  {
    var rem := raw - n * Trunc(raw / n) as real;
    if rem < 0.0 then rem + n else rem
  }

  lemma WrapRemainderFacts(raw: real, n: real)
    requires n > 0.0
    ensures 0.0 <= WrapRemainder(raw, n) < n
    ensures IsMultipleOf(WrapRemainder(raw, n) - raw, n)
    ensures 0.0 <= raw < n ==> WrapRemainder(raw, n) == raw
  {
    var t := Trunc(raw / n);
    var rem := raw - n * t as real;
    RemainderBounds(raw, n, t);
    var k := if rem < 0.0 then 1 - t else -t;
    assert WrapRemainder(raw, n) - raw == n * k as real;
    MultipleOf(n, k);
  }

  lemma MultipleOf(n: real, k: int)
    requires n > 0.0
    ensures IsMultipleOf(n * k as real, n)
  {
    assert n * k as real / n == k as real;
  }

  /** `x % z2`, then `+ z2` when negative: the x wrap of `pointToTileFraction`. */
  function WrapTileX(lon: real, z: nat): (x: real)
    ensures 0.0 <= x < Pow2(z) as real
    ensures IsMultipleOf(x - RawTileX(lon, z), Pow2(z) as real)
    ensures 0.0 <= RawTileX(lon, z) < Pow2(z) as real ==> x == RawTileX(lon, z)
  {
    WrapRemainderFacts(RawTileX(lon, z), Pow2(z) as real);
    WrapRemainder(RawTileX(lon, z), Pow2(z) as real)
  }

  /** With `a == n * q` and `t` the floor of `q`, `a - n * t` lies in `[0, n)`. */
  lemma FloorRemainder(a: real, n: real, q: real, t: int)
    requires n > 0.0 && n * q == a && t == q.Floor
    ensures 0.0 <= a - n * (t as real)
    ensures a - n * (t as real) < n
  {
    var tr := t as real;
    assert tr <= q < tr + 1.0;
    MulLeReal(n, tr, q);
    MulLtReal(n, q, tr + 1.0);
    assert n * (tr + 1.0) == n * tr + n;
    assert a < n * tr + n;
  }

  lemma QuotientSign(raw: real, n: real)
    requires n > 0.0
    ensures n * (raw / n) == raw
    ensures raw >= 0.0 <==> raw / n >= 0.0
  {
    var q := raw / n;
    if q < 0.0 {
      MulLtReal(n, q, 0.0);
    } else {
      MulLeReal(n, 0.0, q);
    }
  }

  lemma RemainderBounds(raw: real, n: real, t: int)
    requires n > 0.0 && t == Trunc(raw / n)
    ensures raw >= 0.0 ==> 0.0 <= raw - n * t as real < n
    ensures raw < 0.0 ==> -n < raw - n * t as real <= 0.0
    ensures 0.0 <= raw < n ==> t == 0
  {
    var q := raw / n;
    QuotientSign(raw, n);
    if raw >= 0.0 {
      RemainderOfNonNegative(raw, n, q, t);
    } else {
      RemainderOfNegative(raw, n, -q, -t);
      assert n * (t as real) == -(n * ((-t) as real));
    }
  }

  lemma RemainderOfNonNegative(raw: real, n: real, q: real, t: int)
    requires n > 0.0 && raw >= 0.0 && n * q == raw && t == q.Floor
    ensures 0.0 <= raw - n * (t as real) < n
    ensures raw < n ==> t == 0
  {
    FloorRemainder(raw, n, q, t);
    if t >= 1 {
      MulLeReal(n, 1.0, t as real);
    } else if t < 0 {
      MulLtReal(n, q, 0.0);
    }
  }

  lemma RemainderOfNegative(raw: real, n: real, p: real, k: int)
    requires n > 0.0 && raw < 0.0 && n * p == -raw && k == p.Floor
    ensures -n < raw + n * (k as real) <= 0.0
  {
    FloorRemainder(-raw, n, p, k);
  }

  function PointToTileFraction(lon: real, lat: real, alt: real, z: nat, proj: TileProjection): (r: Fraction)
    ensures r.z == z
    ensures 0.0 <= r.x < Pow2(z) as real
    ensures r.x == WrapTileX(lon, z)
    ensures r.y == proj.tileY(lat, z) && r.f == proj.tileF(alt, z)
  {
    Fraction(WrapTileX(lon, z), proj.tileY(lat, z), proj.tileF(alt, z), z)
  }

  function PointToTile(lon: real, lat: real, alt: real, z: nat, proj: TileProjection): (r: XYFZ)
    ensures r.z == z
    ensures 0 <= r.x < Pow2(z)
    ensures r.x == WrapTileX(lon, z).Floor
    ensures r.y == proj.tileY(lat, z).Floor && r.f == proj.tileF(alt, z).Floor
  {
    var t := PointToTileFraction(lon, lat, alt, z, proj);
    XYFZ(t.x.Floor, t.y.Floor, t.f.Floor, t.z)
  }

  /** The two corners of `b` quantized at zoom 32, as `bboxToTile` does. */
  function GlobalCorners32(b: BBox3D, proj: TileProjection): (q: CornerBox)
    ensures q.minX == PointToTile(b.minX, b.minY, b.minF, 32, proj).x && q.maxX == PointToTile(b.maxX, b.maxY, b.maxF, 32, proj).x
    ensures q.minY == PointToTile(b.minX, b.minY, b.minF, 32, proj).y && q.maxY == PointToTile(b.maxX, b.maxY, b.maxF, 32, proj).y
    ensures q.minF == PointToTile(b.minX, b.minY, b.minF, 32, proj).f && q.maxF == PointToTile(b.maxX, b.maxY, b.maxF, 32, proj).f
  {
    var lo := PointToTile(b.minX, b.minY, b.minF, 32, proj);
    var hi := PointToTile(b.maxX, b.maxY, b.maxF, 32, proj);
    CornerBox(lo.x, lo.y, lo.f, hi.x, hi.y, hi.f)
  }

  /** `bboxToTile`: quantize both corners at zoom 32 and reduce. The zoom is
      `min(getBboxZoom, minZoom ?? 28)`; every index is the min corner's zoom-32 index
      shifted right by `32 - z`; the tile holds both corners. */
  function BboxToTile(b: BBox3D, minZoom: Option<int>, proj: TileProjection): (r: XYFZ)
    ensures var q := GlobalCorners32(b, proj);
      var cap := if minZoom.Some? then minZoom.value else MAX_ZOOM;
      r.z == (if BboxZoom(q) <= cap then BboxZoom(q) else cap)
    ensures r.z <= MAX_ZOOM
    ensures minZoom.Some? ==> r.z <= minZoom.value
    ensures r.z == 0 ==> r == Root
    ensures r.z != 0 ==> var q := GlobalCorners32(b, proj);
      r.x == UShr(q.minX, 32 - r.z) && r.y == UShr(q.minY, 32 - r.z) && r.f == UShr(q.minF, 32 - r.z)
    ensures 0 < r.z ==> 0 <= r.x < Pow2(r.z) && 0 <= r.y < Pow2(r.z) && 0 <= r.f < Pow2(r.z)
    ensures 0 < r.z ==> var q := GlobalCorners32(b, proj);
      HoldsCorner(r, q.minX, q.minY, q.minF) && HoldsCorner(r, q.maxX, q.maxY, q.maxF)
  {
    var q := GlobalCorners32(b, proj);
    var r := TileFromCorners(q, minZoom);
    assert r.z != 0 ==> r.x == UShr(q.minX, 32 - r.z) && r.y == UShr(q.minY, 32 - r.z) && r.f == UShr(q.minF, 32 - r.z);
    r
  }

  /** Unless the zoom was capped, one level deeper the corners of the box fall in
      different global tiles. */
  lemma BboxToTileIsSmallest(b: BBox3D, minZoom: Option<int>, proj: TileProjection)
    ensures var z := BboxToTile(b, minZoom, proj).z;
      z < MAX_ZOOM && (minZoom.None? || z < minZoom.value) ==>
      z == BboxZoom(GlobalCorners32(b, proj)) && !CoversAt(GlobalCorners32(b, proj), z + 1)
  {
    TileFromCornersIsSmallest(GlobalCorners32(b, proj), minZoom);
  }
}

=== FILE: tilebelt_local.dfy ===
/** The local tile quantizer: local metres to `{z, f, x, y}` tiles with the
    scale formula `2^z * m / scale` (demo/src/local-spatial-id-js-sdk/lib/tilebelt_local.ts,
    and `tile2meters` of src/lib/tilebelt_local.ts). */
module TilebeltLocal {
  import opened Bits
  import opened Failures
  import opened Tilebelt

  /* ---------------------------------------------------------------- */
  /* tile2meters                                                       */
  /* ---------------------------------------------------------------- */

  /** Metres spanned by one tile edge at zoom `z` when the root tile spans `scale`. */
  function Tile2Meters(scale: real, z: int): (m: real)
    ensures m * Exp2(z) == scale
  {
    scale / Exp2(z)
  }

  lemma Tile2MetersAtRoot(scale: real)
    ensures Tile2Meters(scale, 0) == scale
  {
  }

  /** Each zoom step halves the tile edge. */
  lemma Tile2MetersHalves(scale: real, z: int)
    ensures Tile2Meters(scale, z + 1) == Tile2Meters(scale, z) / 2.0
  {
    Exp2Step(z);
  }

  lemma Tile2MetersPositive(scale: real, z: int)
    requires scale > 0.0
    ensures Tile2Meters(scale, z) > 0.0
  {
  }

  /** The expectations of the package test of `tile2meters`. */
  lemma Tile2MetersExamples()
    ensures Tile2Meters(1.0, 0) == 1.0
    ensures Tile2Meters(1.0, 1) == 0.5
    ensures Tile2Meters(1.0, 10) == 0.0009765625
    ensures Tile2Meters(1024.0, 10) == 1.0
  {
    assert Pow2(10) == 1024;
  }

  /* ---------------------------------------------------------------- */
  /* pointToLocalTileFraction / pointToLocalTile                      */
  /* ---------------------------------------------------------------- */

  function Min(a: real, b: real): real { if a <= b then a else b }
  function Max(a: real, b: real): real { if a >= b then a else b }

  /** `Math.max(0, Math.min(hi, v))`. */
  function Clamp(v: real, hi: real): real {
    Max(0.0, Min(hi, v))
  }

  /** `t` (a coordinate as a fraction of the root edge) lies inside the root tile. */
  predicate InRoot(t: real) {
    0.0 <= t < 1.0
  }

  /** The fractional tile coordinate of `m` metres at zoom `z`, defined by doubling
      from the root; `ScaledIsProduct` shows it is `2^z * (m / scale)`. */
  function Scaled(m: real, scale: real, z: nat): real
    requires scale != 0.0
    decreases z
  {
    if z == 0 then m / scale else 2.0 * Scaled(m, scale, z - 1)
  }

  lemma {:induction false} ScaledIsProduct(m: real, scale: real, z: nat)
    requires scale != 0.0
    ensures Scaled(m, scale, z) == (Pow2(z) as real) * (m / scale)
    decreases z
  {
    if z > 0 {
      ScaledIsProduct(m, scale, z - 1);
      assert (Pow2(z) as real) == 2.0 * (Pow2(z - 1) as real);
    }
  }

  /** Going from zoom `z` down to zoom `w` multiplies the coordinate by `2^(w - z)`. */
  lemma {:induction false} ScaledShift(m: real, scale: real, z: nat, w: nat)
    requires scale != 0.0 && z <= w
    ensures Scaled(m, scale, w) == (Pow2(w - z) as real) * Scaled(m, scale, z)
    decreases w - z
  {
    if z < w {
      ScaledShift(m, scale, z, w - 1);
      var s, p := Scaled(m, scale, z), Pow2(w - 1 - z) as real;
      assert Scaled(m, scale, w) == 2.0 * Scaled(m, scale, w - 1);
      assert (Pow2(w - z) as real) == 2.0 * p;
      assert 2.0 * (p * s) == (2.0 * p) * s;
    }
  }

  lemma ScaledShiftBy(m: real, scale: real, z: nat, w: nat, a: real, u: real, n: nat)
    requires scale != 0.0 && z <= w
    requires a == Scaled(m, scale, w) && u == Scaled(m, scale, z) && n == Pow2(w - z)
    ensures a == (n as real) * u
  {
    ScaledShift(m, scale, z, w);
  }

  /** The point `(xM, yM, altM)` lies in the root cube of the namespace. */
  predicate PointInRoot(scale: real, scaleHeight: real, xM: real, yM: real, altM: real)
    requires scale != 0.0 && scaleHeight != 0.0
  {
    InRoot(xM / scale) && InRoot(yM / scale) && InRoot(altM / scaleHeight)
  }

  lemma ProductInRange(p: real, t: real, a: real)
    requires p > 0.0 && a == p * t
    ensures 0.0 <= a < p <==> InRoot(t)
  {
    if t < 0.0 {
      MulLtReal(p, t, 0.0);
    } else if t >= 1.0 {
      MulLeReal(p, 1.0, t);
    } else {
      MulLeReal(p, 0.0, t);
      MulLtReal(p, t, 1.0);
    }
  }

  /** A coordinate falls inside the `2^z` tiles of its axis exactly when it lies in the root. */
  lemma ScaledInRange(m: real, scale: real, z: nat)
    requires scale != 0.0
    ensures 0.0 <= Scaled(m, scale, z) < Pow2(z) as real <==> InRoot(m / scale)
  {
    ScaledIsProduct(m, scale, z);
    ProductInRange(Pow2(z) as real, m / scale, Scaled(m, scale, z));
  }

  function PointToLocalTileFraction(
    scale: real, scaleHeight: real, xM: real, yM: real, altM: real, z: nat, clamp: bool
  ): (r: Result<Fraction>)
    requires scale != 0.0 && scaleHeight != 0.0
    ensures r.Ok? ==> r.value.z == z
    ensures r.Err? ==> !clamp && r.error == OutOfBounds
    ensures !clamp ==> (r.Ok? <==> PointInRoot(scale, scaleHeight, xM, yM, altM))
    ensures r.Ok? ==>
      && 0.0 <= r.value.x < Pow2(z) as real
      && 0.0 <= r.value.y < Pow2(z) as real
      && 0.0 <= r.value.f < Pow2(z) as real
    ensures !clamp && r.Ok? ==>
      && r.value.x == Scaled(xM, scale, z)
      && r.value.y == Scaled(yM, scale, z)
      && r.value.f == Scaled(altM, scaleHeight, z)
    ensures clamp ==> (r.Ok?
      && r.value.x <= Pow2(z) as real - 1.0
      && r.value.y <= Pow2(z) as real - 1.0
      && r.value.f <= Pow2(z) as real - 1.0)
    ensures clamp ==>
      && r.value.x == Clamp(Scaled(xM, scale, z), Pow2(z) as real - 1.0)
      && r.value.y == Clamp(Scaled(yM, scale, z), Pow2(z) as real - 1.0)
      && r.value.f == Clamp(Scaled(altM, scaleHeight, z), Pow2(z) as real - 1.0)
  {
    var z2 := Pow2(z) as real;
    var x := Scaled(xM, scale, z);
    var y := Scaled(yM, scale, z);
    var f := Scaled(altM, scaleHeight, z);
    if !clamp then
      ScaledInRange(xM, scale, z);
      ScaledInRange(yM, scale, z);
      ScaledInRange(altM, scaleHeight, z);
      if x < 0.0 || x >= z2 || y < 0.0 || y >= z2 || f < 0.0 || f >= z2 then
        Err(OutOfBounds)
      else
        Ok(Fraction(x, y, f, z))
    else
      Ok(Fraction(Clamp(x, z2 - 1.0), Clamp(y, z2 - 1.0), Clamp(f, z2 - 1.0), z))
  }

  /** Clamping leaves a coordinate that is already inside `[0, hi]` alone. */
  lemma ClampKeepsInRange(v: real, hi: real)
    requires 0.0 <= v <= hi
    ensures Clamp(v, hi) == v
  {
  }

  /** `k` is the floor of `v`. */
  predicate IsFloorOf(k: int, v: real) {
    k as real <= v < k as real + 1.0
  }

  /** The tile index along one axis of the coordinate `m` at zoom `z`. */
  function AxisTile(m: real, scale: real, z: nat, clamp: bool): int
    requires scale != 0.0
  {
    var v := Scaled(m, scale, z);
    if clamp then Clamp(v, Pow2(z) as real - 1.0).Floor else v.Floor
  }

  function PointToLocalTile(
    scale: real, scaleHeight: real, xM: real, yM: real, altM: real, z: nat, clamp: bool
  ): (r: Result<XYFZ>)
    requires scale != 0.0 && scaleHeight != 0.0
    ensures r.Err? ==> !clamp && r.error == OutOfBounds
    ensures !clamp ==> (r.Ok? <==> PointInRoot(scale, scaleHeight, xM, yM, altM))
    ensures clamp ==> r.Ok?
    ensures r.Ok? ==> (r.value.z == z
      && 0 <= r.value.x < Pow2(z) && 0 <= r.value.y < Pow2(z) && 0 <= r.value.f < Pow2(z))
    ensures r.Ok? && !clamp ==>
      && IsFloorOf(r.value.x, Scaled(xM, scale, z))
      && IsFloorOf(r.value.y, Scaled(yM, scale, z))
      && IsFloorOf(r.value.f, Scaled(altM, scaleHeight, z))
    ensures r.Ok? ==>
      && r.value.x == AxisTile(xM, scale, z, clamp)
      && r.value.y == AxisTile(yM, scale, z, clamp)
      && r.value.f == AxisTile(altM, scaleHeight, z, clamp)
  {
    var t :- PointToLocalTileFraction(scale, scaleHeight, xM, yM, altM, z, clamp);
    Ok(XYFZ(t.x.Floor, t.y.Floor, t.f.Floor, t.z))
  }

  /** A coordinate read back in metres lies in the cell edge `[k * e, (k + 1) * e)`
      its floored tile index `k` names, with `e = tile2meters(scale, z)`. */
  lemma AxisInCell(k: int, m: real, scale: real, z: nat)
    requires scale > 0.0 && IsFloorOf(k, Scaled(m, scale, z))
    ensures InEdge(k, m, scale, z)
  {
    var e := Tile2Meters(scale, z);
    var v := Scaled(m, scale, z);
    Tile2MetersPositive(scale, z);
    ScaledTimesEdge(m, scale, z, v, e);
    EdgeBounds(k as real, v, k as real + 1.0, e, m);
  }

  lemma EdgeBounds(k: real, v: real, k1: real, e: real, m: real)
    requires e > 0.0 && k <= v < k1 && m == e * v
    ensures e * k <= m
    ensures m < e * k1
  {
    var lo, hi := e * k, e * k1;
    MulLeReal(e, k, v);
    MulLtReal(e, v, k1);
    assert lo <= m;
    assert m < hi;
  }

  lemma ScaledTimesEdge(m: real, scale: real, z: nat, v: real, e: real)
    requires scale > 0.0 && v == Scaled(m, scale, z) && e == Tile2Meters(scale, z)
    ensures e * v == m
  {
    var p := Pow2(z) as real;
    ScaledIsProduct(m, scale, z);
    assert e * p == scale;
    assert v == p * (m / scale);
    assert e * v == (e * p) * (m / scale);
  }

  /** Read back in metres: an unclamped point lies inside the cell it is quantized to,
      which spans `[i * e, (i + 1) * e)` on each axis with `e = tile2meters(scale, z)`. */
  lemma PointLiesInItsCell(scale: real, scaleHeight: real, xM: real, yM: real, altM: real, z: nat)
    requires scale > 0.0 && scaleHeight > 0.0
    requires PointToLocalTile(scale, scaleHeight, xM, yM, altM, z, false).Ok?
    ensures InTileFootprint(scale, scaleHeight, PointToLocalTile(scale, scaleHeight, xM, yM, altM, z, false).value, xM, yM, altM)
  {
    var r := PointToLocalTile(scale, scaleHeight, xM, yM, altM, z, false).value;
    AxisInCell(r.x, xM, scale, z);
    AxisInCell(r.y, yM, scale, z);
    AxisInCell(r.f, altM, scaleHeight, z);
  }

  /** The converse of `AxisInCell`: a coordinate inside the edge `[k * e, (k + 1) * e)`
      has tile index `k`. */
  lemma AxisFromCell(k: int, m: real, scale: real, z: nat)
    requires scale > 0.0
    requires InEdge(k, m, scale, z)
    ensures IsFloorOf(k, Scaled(m, scale, z))
  {
    var e := Tile2Meters(scale, z);
    var v := Scaled(m, scale, z);
    Tile2MetersPositive(scale, z);
    ScaledTimesEdge(m, scale, z, v, e);
    EdgeInverse(k as real, v, k as real + 1.0, e, m);
  }

  lemma EdgeInverse(k: real, v: real, k1: real, e: real, m: real)
    requires e > 0.0 && e * k <= m < e * k1 && m == e * v
    ensures k <= v < k1
  {
    if v < k {
      MulLtReal(e, v, k);
    }
    if v >= k1 {
      MulLeReal(e, k1, v);
    }
  }

  /** With or without clamping, a coordinate inside tile `k` of its axis gets index `k`. */
  lemma AxisTileFromCell(k: int, m: real, scale: real, z: nat, clamp: bool)
    requires scale > 0.0 && 0 <= k < Pow2(z)
    requires InEdge(k, m, scale, z)
    ensures AxisTile(m, scale, z, clamp) == k
  {
    AxisFromCell(k, m, scale, z);
  }

  /** `m` lies in the `k`-th edge `[k * e, (k + 1) * e)` of its axis, `e = tile2meters(scale, z)`. */
  predicate InEdge(k: int, m: real, scale: real, z: nat) {
    Tile2Meters(scale, z) * (k as real) <= m < Tile2Meters(scale, z) * (k as real + 1.0)
  }

  /** The metre footprint of the tile `t`: its edge on each horizontal axis, and
      the `f`-th vertical edge. */
  predicate InTileFootprint(scale: real, scaleHeight: real, t: XYFZ, xM: real, yM: real, altM: real)
    requires t.z >= 0
  {
    InEdge(t.x, xM, scale, t.z) && InEdge(t.y, yM, scale, t.z) && InEdge(t.f, altM, scaleHeight, t.z)
  }

  /** Quantization and the tile footprint agree exactly: a point is quantized to a
      tile of the root cube if and only if it lies in that tile's footprint. */
  lemma QuantizeIffInFootprint(scale: real, scaleHeight: real, t: XYFZ, xM: real, yM: real, altM: real)
    requires scale > 0.0 && scaleHeight > 0.0 && t.z >= 0
    requires 0 <= t.x < Pow2(t.z) && 0 <= t.y < Pow2(t.z) && 0 <= t.f < Pow2(t.z)
    ensures PointToLocalTile(scale, scaleHeight, xM, yM, altM, t.z, false) == Ok(t)
        <==> InTileFootprint(scale, scaleHeight, t, xM, yM, altM)
  {
    if PointToLocalTile(scale, scaleHeight, xM, yM, altM, t.z, false) == Ok(t) {
      PointLiesInItsCell(scale, scaleHeight, xM, yM, altM, t.z);
    }
    if InTileFootprint(scale, scaleHeight, t, xM, yM, altM) {
      FootprintQuantizes(scale, scaleHeight, t, xM, yM, altM);
    }
  }

  lemma FootprintQuantizes(scale: real, scaleHeight: real, t: XYFZ, xM: real, yM: real, altM: real)
    requires scale > 0.0 && scaleHeight > 0.0 && t.z >= 0
    requires 0 <= t.x < Pow2(t.z) && 0 <= t.y < Pow2(t.z) && 0 <= t.f < Pow2(t.z)
    requires InTileFootprint(scale, scaleHeight, t, xM, yM, altM)
    ensures PointToLocalTile(scale, scaleHeight, xM, yM, altM, t.z, false) == Ok(t)
  {
    FootprintAxes(scale, scaleHeight, t, xM, yM, altM);
    TileFromAxes(scale, scaleHeight, t, xM, yM, altM);
  }

  lemma FootprintAxes(scale: real, scaleHeight: real, t: XYFZ, xM: real, yM: real, altM: real)
    requires scale > 0.0 && scaleHeight > 0.0 && t.z >= 0
    requires 0 <= t.x < Pow2(t.z) && 0 <= t.y < Pow2(t.z) && 0 <= t.f < Pow2(t.z)
    requires InTileFootprint(scale, scaleHeight, t, xM, yM, altM)
    ensures AxisTile(xM, scale, t.z, false) == t.x && InRoot(xM / scale)
    ensures AxisTile(yM, scale, t.z, false) == t.y && InRoot(yM / scale)
    ensures AxisTile(altM, scaleHeight, t.z, false) == t.f && InRoot(altM / scaleHeight)
  {
    AxisInRoot(t.x, xM, scale, t.z);
    AxisInRoot(t.y, yM, scale, t.z);
    AxisInRoot(t.f, altM, scaleHeight, t.z);
  }

  lemma TileFromAxes(scale: real, scaleHeight: real, t: XYFZ, xM: real, yM: real, altM: real)
    requires scale > 0.0 && scaleHeight > 0.0 && t.z >= 0
    requires AxisTile(xM, scale, t.z, false) == t.x && InRoot(xM / scale)
    requires AxisTile(yM, scale, t.z, false) == t.y && InRoot(yM / scale)
    requires AxisTile(altM, scaleHeight, t.z, false) == t.f && InRoot(altM / scaleHeight)
    ensures PointToLocalTile(scale, scaleHeight, xM, yM, altM, t.z, false) == Ok(t)
  {
    assert PointInRoot(scale, scaleHeight, xM, yM, altM);
  }

  lemma AxisInRoot(k: int, m: real, scale: real, z: nat)
    requires scale > 0.0 && 0 <= k < Pow2(z)
    requires InEdge(k, m, scale, z)
    ensures AxisTile(m, scale, z, false) == k && InRoot(m / scale)
  {
    AxisFromCell(k, m, scale, z);
    ScaledInRange(m, scale, z);
  }

  /** Inside the root cube clamping changes no tile index. */
  lemma ClampIrrelevantInRoot(scale: real, scaleHeight: real, xM: real, yM: real, altM: real, z: nat)
    requires scale > 0.0 && scaleHeight > 0.0
    requires PointInRoot(scale, scaleHeight, xM, yM, altM)
    ensures PointToLocalTile(scale, scaleHeight, xM, yM, altM, z, true) == PointToLocalTile(scale, scaleHeight, xM, yM, altM, z, false)
  {
    var t := PointToLocalTile(scale, scaleHeight, xM, yM, altM, z, false).value;
    PointLiesInItsCell(scale, scaleHeight, xM, yM, altM, z);
    ClampedQuantizeInFootprint(scale, scaleHeight, t, xM, yM, altM);
  }

  /** Clamping does not move a point already inside a tile of the root cube. */
  lemma ClampedQuantizeInFootprint(scale: real, scaleHeight: real, t: XYFZ, xM: real, yM: real, altM: real)
    requires scale > 0.0 && scaleHeight > 0.0 && t.z >= 0
    requires 0 <= t.x < Pow2(t.z) && 0 <= t.y < Pow2(t.z) && 0 <= t.f < Pow2(t.z)
    requires InTileFootprint(scale, scaleHeight, t, xM, yM, altM)
    ensures PointToLocalTile(scale, scaleHeight, xM, yM, altM, t.z, true) == Ok(t)
  {
    AxisTileFromCell(t.x, xM, scale, t.z, true);
    AxisTileFromCell(t.y, yM, scale, t.z, true);
    AxisTileFromCell(t.f, altM, scaleHeight, t.z, true);
  }

  /* ---------------------------------------------------------------- */
  /* Zoom 32 versus zoom z                                             */
  /* ---------------------------------------------------------------- */

  /** With `a == n * u`: flooring `a` then dividing by `n` floors `u`. */
  lemma FloorDiv(a: real, n: int, u: real)
    requires n >= 1 && a == (n as real) * u
    ensures a.Floor / n == u.Floor
  {
    var k := a.Floor;
    var q := k / n;
    var r := k % n;
    assert k == n * q + r && 0 <= r < n;
    FloorDivBounds(a, n, u, k, q);
    assert q as real <= u < q as real + 1.0;
  }

  /** The quotient `q` of `floor(a)` by `n` brackets `u = a / n`. */
  lemma FloorDivBounds(a: real, n: int, u: real, k: int, q: int)
    requires n >= 1 && a == (n as real) * u
    requires k as real <= a < k as real + 1.0
    requires n * q <= k < n * q + n
    ensures q as real <= u < q as real + 1.0
  {
    var nr := n as real;
    assert (n * q) as real == nr * (q as real);
    assert (n * q + n) as real == nr * (q as real + 1.0);
    if u < q as real {
      MulLtReal(nr, u, q as real);
    }
    if u >= q as real + 1.0 {
      MulLeReal(nr, q as real + 1.0, u);
    }
  }

  /** The three cases of `ClampShift`, with `a == n * u` the zoom-32 coordinate,
      `u` the zoom-z one, `P = 2^z`, `N = 2^(32 - z)`. */
  lemma ClampShiftLow(a: real, u: real, p: int, n: int)
    requires p >= 1 && n >= 1 && a == (n as real) * u && a < 0.0
    ensures Clamp(a, (n * p - 1) as real).Floor / n == Clamp(u, (p - 1) as real).Floor
  {
    if u >= 0.0 {
      MulLeReal(n as real, 0.0, u);
    }
  }

  lemma ClampShiftMid(a: real, u: real, p: int, n: int)
    requires p >= 1 && n >= 1 && a == (n as real) * u
    requires 0.0 <= a <= (n * p - 1) as real
    ensures Clamp(a, (n * p - 1) as real).Floor / n == Clamp(u, (p - 1) as real).Floor
  {
    var nr, pr := n as real, p as real;
    if u < 0.0 {
      MulLtReal(nr, u, 0.0);
    }
    FloorDiv(a, n, u);
    if u >= pr {
      MulLeReal(nr, pr, u);
    }
    if u > pr - 1.0 {
      assert u.Floor == p - 1;
    }
  }

  lemma ClampShiftHigh(a: real, u: real, p: int, n: int)
    requires p >= 1 && n >= 1 && a == (n as real) * u
    requires a > (n * p - 1) as real
    ensures Clamp(a, (n * p - 1) as real).Floor / n == Clamp(u, (p - 1) as real).Floor
  {
    var nr, pr := n as real, p as real;
    DivUnique(n * p - 1, n, p - 1, n - 1);
    assert ((n * p) as real) == nr * pr;
    if u <= pr - 1.0 {
      MulLeReal(nr, u, pr - 1.0);
      assert nr * (pr - 1.0) == nr * pr - nr;
    }
  }

  /** Clamping at zoom 32 and shifting equals clamping at zoom `z`. */
  lemma ClampShift(a: real, u: real, p: int, n: int)
    requires p >= 1 && n >= 1 && a == (n as real) * u
    ensures Clamp(a, (n * p - 1) as real).Floor / n == Clamp(u, (p - 1) as real).Floor
  {
    if a < 0.0 {
      ClampShiftLow(a, u, p, n);
    } else if a <= (n * p - 1) as real {
      ClampShiftMid(a, u, p, n);
    } else {
      ClampShiftHigh(a, u, p, n);
    }
  }

  lemma ShiftClamped(a: real, u: real, p: int, n: int)
    requires p >= 1 && n >= 1 && a == (n as real) * u
    ensures 0 <= Clamp(a, (n * p - 1) as real).Floor < n * p
    ensures Clamp(a, (n * p - 1) as real).Floor / n == Clamp(u, (p - 1) as real).Floor
  {
    ClampShift(a, u, p, n);
  }

  lemma ShiftUnclamped(a: real, u: real, p: int, n: int)
    requires p >= 1 && n >= 1 && a == (n as real) * u
    requires 0.0 <= a < (n * p) as real
    ensures 0 <= a.Floor < n * p
    ensures a.Floor / n == u.Floor
  {
    FloorDiv(a, n, u);
  }

  /** One axis quantized at zoom `w` = 32 and shifted right by `32 - z` is the same
      axis quantized at zoom `z`. */
  lemma AxisShift(m: real, scale: real, z: nat, w: nat, clamp: bool)
    requires scale != 0.0 && 1 <= z <= w && w == 32
    requires !clamp ==> InRoot(m / scale)
    ensures 0 <= AxisTile(m, scale, w, clamp) < TWO32
    ensures Prefix(ToUint32(AxisTile(m, scale, w, clamp)), w - z) == AxisTile(m, scale, z, clamp)
  {
    var p, n := Pow2(z), Pow2(w - z);
    Pow2Add(w - z, z);
    Pow2Of32();
    assert n * p == TWO32;
    var u := Scaled(m, scale, z);
    var a := Scaled(m, scale, w);
    ScaledShiftBy(m, scale, z, w, a, u, n);
    var k := AxisTile(m, scale, w, clamp);
    if clamp {
      assert k == Clamp(a, (n * p - 1) as real).Floor;
      ShiftClamped(a, u, p, n);
    } else {
      ScaledInRange(m, scale, w);
      assert k == a.Floor;
      ShiftUnclamped(a, u, p, n);
    }
    assert k / n == AxisTile(m, scale, z, clamp);
  }

  /* ---------------------------------------------------------------- */
  /* bboxToLocalTile / calculateLocalZFXY                             */
  /* ---------------------------------------------------------------- */

  /** `bboxToLocalTile`: quantize both corners at zoom 32 and reduce them to one tile. */
  function BboxToLocalTile(scale: real, scaleHeight: real, b: BBox3D, minZoom: Option<int>, clamp: bool): (r: Result<XYFZ>)
    requires scale != 0.0 && scaleHeight != 0.0
    ensures r.Err? ==> !clamp && r.error == OutOfBounds
    ensures !clamp ==> (r.Ok? <==>
      PointInRoot(scale, scaleHeight, b.minX, b.minY, b.minF) && PointInRoot(scale, scaleHeight, b.maxX, b.maxY, b.maxF))
    ensures clamp ==> r.Ok?
    ensures r.Ok? ==> r.value.z <= MAX_ZOOM && (minZoom.Some? ==> r.value.z <= minZoom.value)
    ensures r.Ok? && r.value.z == 0 ==> r.value == Root
    ensures r.Ok? && 0 < r.value.z ==>
      0 <= r.value.x < Pow2(r.value.z) && 0 <= r.value.y < Pow2(r.value.z) && 0 <= r.value.f < Pow2(r.value.z)
  {
    var lo :- PointToLocalTile(scale, scaleHeight, b.minX, b.minY, b.minF, 32, clamp);
    var hi :- PointToLocalTile(scale, scaleHeight, b.maxX, b.maxY, b.maxF, 32, clamp);
    Ok(TileFromCorners(CornerBox(lo.x, lo.y, lo.f, hi.x, hi.y, hi.f), minZoom))
  }

  /** The corners of `b` quantized at zoom 32. */
  function Corners32(scale: real, scaleHeight: real, b: BBox3D, clamp: bool): CornerBox
    requires scale != 0.0 && scaleHeight != 0.0
  {
    match (PointToLocalTile(scale, scaleHeight, b.minX, b.minY, b.minF, 32, clamp),
           PointToLocalTile(scale, scaleHeight, b.maxX, b.maxY, b.maxF, 32, clamp))
    case (Ok(lo), Ok(hi)) => CornerBox(lo.x, lo.y, lo.f, hi.x, hi.y, hi.f)
    case _ => CornerBox(0, 0, 0, 0, 0, 0)
  }

  /** The tile index of the point `(xM, yM, altM)` at zoom `z` (1..32) read off its zoom-32 quantization. */
  lemma PointAtZoomFromZoom32(scale: real, scaleHeight: real, xM: real, yM: real, altM: real, z: nat, clamp: bool)
    requires scale != 0.0 && scaleHeight != 0.0 && 1 <= z <= 32
    ensures PointToLocalTile(scale, scaleHeight, xM, yM, altM, 32, clamp).Ok?
        <==> PointToLocalTile(scale, scaleHeight, xM, yM, altM, z, clamp).Ok?
    ensures PointToLocalTile(scale, scaleHeight, xM, yM, altM, 32, clamp).Ok? ==>
      var q := PointToLocalTile(scale, scaleHeight, xM, yM, altM, 32, clamp).value;
      var r := PointToLocalTile(scale, scaleHeight, xM, yM, altM, z, clamp).value;
      && r.x == Prefix(ToUint32(q.x), 32 - z)
      && r.y == Prefix(ToUint32(q.y), 32 - z)
      && r.f == Prefix(ToUint32(q.f), 32 - z)
  {
    if PointToLocalTile(scale, scaleHeight, xM, yM, altM, 32, clamp).Ok? {
      AxisShift(xM, scale, z, 32, clamp);
      AxisShift(yM, scale, z, 32, clamp);
      AxisShift(altM, scaleHeight, z, 32, clamp);
    }
  }

  /** At any zoom from 1 to 32, the two corners of a box quantize to the same tile
      exactly when their zoom-32 indices share the top `z` bits on every axis. */
  lemma CornerTilesAt(scale: real, scaleHeight: real, b: BBox3D, z: nat, clamp: bool)
    requires scale != 0.0 && scaleHeight != 0.0 && 1 <= z <= 32
    ensures BboxToLocalTile(scale, scaleHeight, b, None, clamp).Ok? ==>
      && PointToLocalTile(scale, scaleHeight, b.minX, b.minY, b.minF, z, clamp).Ok?
      && PointToLocalTile(scale, scaleHeight, b.maxX, b.maxY, b.maxF, z, clamp).Ok?
      && (PointToLocalTile(scale, scaleHeight, b.minX, b.minY, b.minF, z, clamp)
            == PointToLocalTile(scale, scaleHeight, b.maxX, b.maxY, b.maxF, z, clamp)
          <==> CoversAt(Corners32(scale, scaleHeight, b, clamp), z))
  {
    PointAtZoomFromZoom32(scale, scaleHeight, b.minX, b.minY, b.minF, z, clamp);
    PointAtZoomFromZoom32(scale, scaleHeight, b.maxX, b.maxY, b.maxF, z, clamp);
  }

  /** The tile of a box holds both of its corners: quantizing either corner
      directly at the result zoom gives the result. */
  lemma BboxTileHoldsCorners(scale: real, scaleHeight: real, b: BBox3D, minZoom: Option<int>, clamp: bool)
    requires scale != 0.0 && scaleHeight != 0.0
    ensures var t := BboxToLocalTile(scale, scaleHeight, b, minZoom, clamp);
      t.Ok? && 0 < t.value.z ==>
      var r := t.value;
      && PointToLocalTile(scale, scaleHeight, b.minX, b.minY, b.minF, r.z, clamp) == Ok(r)
      && PointToLocalTile(scale, scaleHeight, b.maxX, b.maxY, b.maxF, r.z, clamp) == Ok(r)
  {
    var t := BboxToLocalTile(scale, scaleHeight, b, minZoom, clamp);
    if t.Ok? && 0 < t.value.z {
      var r := t.value;
      assert BboxToLocalTile(scale, scaleHeight, b, None, clamp).Ok?;
      var q := Corners32(scale, scaleHeight, b, clamp);
      assert r == TileFromCorners(q, minZoom);
      PointInHeldTile(scale, scaleHeight, b.minX, b.minY, b.minF, r, clamp);
      PointInHeldTile(scale, scaleHeight, b.maxX, b.maxY, b.maxF, r, clamp);
    }
  }

  /** A tile that holds a point's zoom-32 indices is the point's tile at its zoom. */
  lemma PointInHeldTile(scale: real, scaleHeight: real, xM: real, yM: real, altM: real, r: XYFZ, clamp: bool)
    requires scale != 0.0 && scaleHeight != 0.0 && 1 <= r.z <= MAX_ZOOM
    ensures var q := PointToLocalTile(scale, scaleHeight, xM, yM, altM, 32, clamp);
      q.Ok? && HoldsCorner(r, q.value.x, q.value.y, q.value.f) ==>
      PointToLocalTile(scale, scaleHeight, xM, yM, altM, r.z, clamp) == Ok(r)
  {
    PointAtZoomFromZoom32(scale, scaleHeight, xM, yM, altM, r.z, clamp);
  }

  /** Unless the zoom was capped by `minZoom` or by 28, the corners fall in different
      tiles one zoom deeper: the result is the smallest tile holding the box. */
  lemma BboxTileIsSmallest(scale: real, scaleHeight: real, b: BBox3D, minZoom: Option<int>, clamp: bool)
    requires scale != 0.0 && scaleHeight != 0.0
    ensures var t := BboxToLocalTile(scale, scaleHeight, b, minZoom, clamp);
      t.Ok? && t.value.z < MAX_ZOOM && (minZoom.None? || t.value.z < minZoom.value) ==>
      var z := t.value.z + 1;
      && z >= 1
      && PointToLocalTile(scale, scaleHeight, b.minX, b.minY, b.minF, z, clamp).Ok?
      && PointToLocalTile(scale, scaleHeight, b.maxX, b.maxY, b.maxF, z, clamp).Ok?
      && PointToLocalTile(scale, scaleHeight, b.minX, b.minY, b.minF, z, clamp)
         != PointToLocalTile(scale, scaleHeight, b.maxX, b.maxY, b.maxF, z, clamp)
  {
    var t := BboxToLocalTile(scale, scaleHeight, b, minZoom, clamp);
    if t.Ok? && t.value.z < MAX_ZOOM && (minZoom.None? || t.value.z < minZoom.value) {
      assert BboxToLocalTile(scale, scaleHeight, b, None, clamp).Ok?;
      var q := Corners32(scale, scaleHeight, b, clamp);
      var r := TileFromCorners(q, minZoom);
      assert r == t.value;
      TileFromCornersIsSmallest(q, minZoom);
      CornerTilesAt(scale, scaleHeight, b, r.z + 1, clamp);
    }
  }

  /** The input of `calculateLocalZFXY`: a point `{x, y, alt}` or a six-entry box. */
  datatype LocalInput = PointInput(x: real, y: real, alt: real) | BoxInput(box: BBox3D)

  /** A point is treated as the degenerate box whose corners coincide. */
  function InputBox(input: LocalInput): (b: BBox3D)
    ensures input.BoxInput? ==> b == input.box
    ensures input.PointInput? ==>
      b.minX == b.maxX == input.x && b.minY == b.maxY == input.y && b.minF == b.maxF == input.alt
  {
    match input
    case BoxInput(b) => b
    case PointInput(x, y, alt) => BBox3D(x, y, alt, x, y, alt)
  }

  function CalculateLocalZFXY(scale: real, scaleHeight: real, input: LocalInput, zoom: int, clamp: bool): (r: Result<ZFXY>)
    requires scale != 0.0 && scaleHeight != 0.0
    ensures r.Err? ==> !clamp && r.error == OutOfBounds
    ensures clamp ==> r.Ok?
    ensures r.Ok? ==> r.value.z <= zoom && r.value.z <= MAX_ZOOM
    ensures r.Ok? && input.PointInput? ==> r.value.z == (if zoom <= MAX_ZOOM then zoom else MAX_ZOOM)
  {
    var b := InputBox(input);
    var t :- BboxToLocalTile(scale, scaleHeight, b, Some(zoom), clamp);
    if input.PointInput? then
      PointZoomIsFull(scale, scaleHeight, b, clamp);
      Ok(XyfzTileAryToObj(t))
    else
      Ok(XyfzTileAryToObj(t))
  }

  lemma PointZoomIsFull(scale: real, scaleHeight: real, b: BBox3D, clamp: bool)
    requires scale != 0.0 && scaleHeight != 0.0
    requires b.minX == b.maxX && b.minY == b.maxY && b.minF == b.maxF
    ensures BboxZoom(Corners32(scale, scaleHeight, b, clamp)) == MAX_ZOOM
  {
  }

  /** A point's cell at zoom `z` (1..28) is the tile that holds the point at `z`. */
  lemma PointCellIsPointTile(scale: real, scaleHeight: real, x: real, y: real, alt: real, zoom: int, clamp: bool)
    requires scale != 0.0 && scaleHeight != 0.0 && 1 <= zoom
    ensures CalculateLocalZFXY(scale, scaleHeight, PointInput(x, y, alt), zoom, clamp).Ok? ==>
      var z := if zoom <= MAX_ZOOM then zoom else MAX_ZOOM;
      PointToLocalTile(scale, scaleHeight, x, y, alt, z, clamp).Ok?
      && CalculateLocalZFXY(scale, scaleHeight, PointInput(x, y, alt), zoom, clamp)
         == Ok(XyfzTileAryToObj(PointToLocalTile(scale, scaleHeight, x, y, alt, z, clamp).value))
  {
    var b := InputBox(PointInput(x, y, alt));
    BboxTileHoldsCorners(scale, scaleHeight, b, Some(zoom), clamp);
  }

  /** Expectations of the quantizer tests (src/lib/tilebelt_local.test.ts). */
  lemma QuantizerExamples()
    ensures PointToLocalTileFraction(1024.0, 1024.0, 511.0, 511.0, 0.0, 11, false) == Ok(Fraction(1022.0, 1022.0, 0.0, 11))
    ensures PointToLocalTileFraction(1024.0, 1024.0, 511.0, 511.0, 0.0, 9, false) == Ok(Fraction(255.5, 255.5, 0.0, 9))
    ensures PointToLocalTileFraction(1024.0, 1024.0, 1100.0, 1100.0, 0.0, 0, true) == Ok(Fraction(0.0, 0.0, 0.0, 0))
    ensures PointToLocalTileFraction(1024.0, 1024.0, 1100.0, 1100.0, 0.0, 0, false) == Err(OutOfBounds)
  {
    assert Pow2(9) == 512;
    assert Pow2(11) == 2048;
  }

  /** Zero metres lies in the first tile of an axis at every zoom. */
  lemma AxisTileOfZero(scale: real, z: nat, clamp: bool)
    requires scale != 0.0
    ensures AxisTile(0.0, scale, z, clamp) == 0
  {
    ScaledIsProduct(0.0, scale, z);
    assert Scaled(0.0, scale, z) == 0.0;
    assert Clamp(0.0, Pow2(z) as real - 1.0) == 0.0;
  }

  /** The origin quantizes to the corner tile at every zoom up to the maximum:
      `{z: 10, f: 0, x: 0, y: 0}` at zoom 10. */
  lemma OriginIsCornerTile(scale: real, scaleHeight: real, zoom: int)
    requires scale > 0.0 && scaleHeight > 0.0 && 0 <= zoom <= MAX_ZOOM
    ensures CalculateLocalZFXY(scale, scaleHeight, PointInput(0.0, 0.0, 0.0), zoom, false) == Ok(ZFXY(zoom, 0, 0, 0))
  {
    assert PointInRoot(scale, scaleHeight, 0.0, 0.0, 0.0);
    if zoom == 0 {
      var b := InputBox(PointInput(0.0, 0.0, 0.0));
      assert BboxToLocalTile(scale, scaleHeight, b, Some(zoom), false).Ok?;
    } else {
      PointCellIsPointTile(scale, scaleHeight, 0.0, 0.0, 0.0, zoom, false);
      AxisTileOfZero(scale, zoom, false);
      AxisTileOfZero(scaleHeight, zoom, false);
    }
  }
}

=== FILE: tools.dfy ===
/** `hashCode` of the demo (demo/src/tools.ts): the polynomial string hash with
    base 31, kept in 32-bit signed arithmetic and returned as an unsigned number. */
module Tools {
  import opened Bits

  /** A UTF-16 code unit, what `charCodeAt` returns. */
  type CodeUnit = c: int | 0 <= c < 0x1_0000

  /** The polynomial the hash computes, without any wrap-around:
      `s[0]*31^(n-1) + ... + s[n-1]`. */
  function WeightedSum(s: seq<CodeUnit>): (w: nat)
    ensures |s| > 0 ==> w >= s[|s| - 1]
  {
    if |s| == 0 then 0 else 31 * WeightedSum(s[..|s| - 1]) + s[|s| - 1]
  }

  /** Two integers agree modulo 2^32. */
  predicate Congruent(a: int, b: int) {
    ToUint32(a) == ToUint32(b)
  }

  lemma CongruentShift(x: int, n: int)
    ensures Congruent(x + TWO32 * n, x)
  {
    var q := x / TWO32;
    var r := x % TWO32;
    assert x + TWO32 * n == TWO32 * (q + n) + r;
    DivUniqueInt(x + TWO32 * n, q + n, r);
  }

  /** Euclidean division has one quotient and remainder. */
  lemma DivUniqueInt(a: int, q: int, r: int)
    requires 0 <= r < TWO32 && a == TWO32 * q + r
    ensures a % TWO32 == r
  {
  }

  /** Congruence survives `k*_ + c`. */
  lemma CongruentAffine(h: int, w: int, k: int, c: int)
    requires Congruent(h, w)
    ensures Congruent(k * h + c, k * w + c)
  {
    var d := h / TWO32 - w / TWO32;
    assert h == w + TWO32 * d by {
      assert h == TWO32 * (h / TWO32) + h % TWO32;
      assert w == TWO32 * (w / TWO32) + w % TWO32;
    }
    assert k * h + c == (k * w + c) + TWO32 * (k * d) by {
      assert k * h == k * w + k * (TWO32 * d);
    }
    CongruentShift(k * w + c, k * d);
  }

  /** `Math.imul`: the low 32 bits of the product, read as a signed number. */
  function Imul(a: int, b: int): (r: int)
    ensures -(TWO31 as int) <= r < TWO31
    ensures Congruent(r, a * b)
  {
    var p := ToInt32(a) * ToInt32(b);
    CongruentAffine(ToInt32(a), a, ToInt32(b), 0);
    CongruentAffine(ToInt32(b), b, a, 0);
    assert ToInt32(a) * ToInt32(b) == ToInt32(b) * ToInt32(a);
    ToInt32(p)
  }

  /** One step of the loop: `h = Math.imul(31, h) + c | 0`. */
  function Step(h: int, c: CodeUnit): (r: int)
    ensures -(TWO31 as int) <= r < TWO31
    ensures Congruent(r, 31 * h + c)
  {
    var m := Imul(31, h);
    CongruentAffine(m, 31 * h, 1, c);
    ToInt32(m + c)
  }

  /** The signed state after the first `|s|` code units. */
  function HashState(s: seq<CodeUnit>): (h: int)
    ensures -(TWO31 as int) <= h < TWO31
  {
    if |s| == 0 then 0 else Step(HashState(s[..|s| - 1]), s[|s| - 1])
  }

  /** `hashCode(s)`: the final state as an unsigned number (`h >>> 0`). */
  function HashCode(s: seq<CodeUnit>): (r: nat)
    ensures r < TWO32
  {
    UShr(HashState(s), 0)
  }

  /** The hash is the polynomial reduced modulo 2^32. */
  lemma {:induction false} HashStateIsWeightedSum(s: seq<CodeUnit>)
    ensures Congruent(HashState(s), WeightedSum(s))
    decreases |s|
  {
    if |s| > 0 {
      var p := s[..|s| - 1];
      HashStateIsWeightedSum(p);
      CongruentAffine(HashState(p), WeightedSum(p), 31, s[|s| - 1]);
    }
  }

  lemma HashCodeIsWeightedSum(s: seq<CodeUnit>)
    ensures HashCode(s) == WeightedSum(s) % TWO32
  {
    HashStateIsWeightedSum(s);
  }

  /** Appending a code unit multiplies by 31 and adds it, modulo 2^32. */
  lemma HashCodeAppend(s: seq<CodeUnit>, c: CodeUnit)
    ensures HashCode(s + [c]) == (31 * HashCode(s) + c) % TWO32
  {
    var t := s + [c];
    assert t[..|t| - 1] == s;
    HashCodeIsWeightedSum(s);
    HashCodeIsWeightedSum(t);
    CongruentAffine(HashCode(s), WeightedSum(s), 31, c);
  }

  /** Short strings, whose polynomial stays below 2^32, hash to the polynomial itself. */
  lemma HashCodeWithoutWrap(s: seq<CodeUnit>)
    requires WeightedSum(s) < TWO32
    ensures HashCode(s) == WeightedSum(s)
  {
    HashCodeIsWeightedSum(s);
    DivUniqueInt(WeightedSum(s), 0, WeightedSum(s));
  }

  /** A single code unit hashes to itself. */
  lemma HashCodeSingle(c: CodeUnit)
    ensures HashCode([c]) == c
  {
    HashCodeAppend([], c);
  }

  lemma HashCodeExamples()
    ensures HashCode([]) == 0
    ensures HashCode([97]) == 97
    ensures HashCode([97, 98]) == 3105
  {
    HashCodeAppend([], 97);
    HashCodeAppend([97], 98);
  }

  /** The loop of `hashCode`, one code unit at a time. */
  method ComputeHashCode(s: seq<CodeUnit>) returns (r: nat)
    ensures r == WeightedSum(s) % TWO32
    ensures r == HashCode(s)
  {
    var h := 0;
    var i := 0;
    while i < |s|
      invariant 0 <= i <= |s|
      invariant h == HashState(s[..i])
    {
      assert s[..i + 1][..i] == s[..i];
      h := Step(h, s[i]);
      i := i + 1;
    }
    assert s[..|s|] == s;
    HashCodeIsWeightedSum(s);
    r := UShr(h, 0);
  }
}

=== FILE: zfxy_string.dfy ===
/** The canonical `/z/f/x/y` string a cell carries in `zfxyStr`, built with
    ECMAScript's decimal rendering of integers, and a decoder for it that
    shows the rendering loses nothing. */
module ZfxyString {
  import opened Failures
  import opened Tilebelt

  predicate IsDigit(c: char) {
    '0' <= c <= '9'
  }

  predicate AllDigits(s: string) {
    forall i :: 0 <= i < |s| ==> IsDigit(s[i])
  }

  function DigitChar(d: nat): (c: char)
    requires d < 10
    ensures IsDigit(c)
  {
    ('0' as int + d) as char
  }

  function DigitValue(c: char): (d: nat)
    requires IsDigit(c)
    ensures d < 10
  {
    c as int - '0' as int
  }

  /** Decimal rendering of a natural number, without leading zeros. */
  function NatToString(n: nat): (s: string)
    ensures |s| >= 1 && AllDigits(s)
    ensures |s| > 1 ==> s[0] != '0'
    decreases n
  {
    if n < 10 then [DigitChar(n)] else NatToString(n / 10) + [DigitChar(n % 10)]
  }

  /** Template-literal rendering of an integer: a `-` sign, then the digits. */
  function IntToString(i: int): (s: string)
    ensures |s| >= 1
    ensures '/' !in s
  {
    if i < 0 then "-" + NatToString(-i) else NatToString(i)
  }

  /** `/${z}/${f}/${x}/${y}`, as `_regenerateAttributesFromZFXY` writes it. */
  function ZfxyStr(t: ZFXY): (s: string)
    ensures |s| >= 8 && s[0] == '/'
  {
    "/" + IntToString(t.z) + "/" + IntToString(t.f) + "/" + IntToString(t.x) + "/" + IntToString(t.y)
  }

  /* ---------------------------------------------------------------- */
  /* The decoder                                                       */
  /* ---------------------------------------------------------------- */

  function ParseDigits(s: string): nat
    requires AllDigits(s)
    decreases |s|
  {
    if |s| == 0 then 0 else 10 * ParseDigits(s[..|s| - 1]) + DigitValue(s[|s| - 1])
  }

  function ParseInt(s: string): Option<int> {
    if |s| >= 2 && s[0] == '-' && AllDigits(s[1..]) then Some(0 - ParseDigits(s[1..]) as int)
    else if |s| >= 1 && AllDigits(s) then Some(ParseDigits(s))
    else None
  }

  /** The pieces of `s` between the `/` separators. */
  function SplitSlash(s: string): (r: seq<string>)
    ensures |r| >= 1
    ensures forall i :: 0 <= i < |r| ==> '/' !in r[i]
    decreases |s|
  {
    if |s| == 0 then [""]
    else
      var rest := SplitSlash(s[1..]);
      if s[0] == '/' then [""] + rest else [[s[0]] + rest[0]] + rest[1..]
  }

  /** Reads a `/z/f/x/y` string back into its tile. */
  function DecodeZfxyStr(s: string): Option<ZFXY> {
    var parts := SplitSlash(s);
    if |parts| != 5 || parts[0] != "" then None
    else
      match (ParseInt(parts[1]), ParseInt(parts[2]), ParseInt(parts[3]), ParseInt(parts[4]))
      case (Some(z), Some(f), Some(x), Some(y)) => Some(ZFXY(z, f, x, y))
      case _ => None
  }

  /* ---------------------------------------------------------------- */
  /* Round trip                                                        */
  /* ---------------------------------------------------------------- */

  lemma {:induction false} NatRoundTrip(n: nat)
    ensures ParseDigits(NatToString(n)) == n
    decreases n
  {
    var s := NatToString(n);
    if n < 10 {
      assert s[..0] == [];
    } else {
      NatRoundTrip(n / 10);
      assert s[..|s| - 1] == NatToString(n / 10);
    }
  }

  lemma IntRoundTrip(i: int)
    ensures ParseInt(IntToString(i)) == Some(i)
  {
    var s := IntToString(i);
    if i < 0 {
      assert s[1..] == NatToString(-i);
      NatRoundTrip(-i);
    } else {
      NatRoundTrip(i);
    }
  }

  lemma {:induction false} SplitSlashJoin(a: string, b: string)
    requires '/' !in a
    ensures SplitSlash(a + "/" + b) == [a] + SplitSlash(b)
    decreases |a|
  {
    if |a| == 0 {
      assert a + "/" + b == "/" + b;
      assert ("/" + b)[1..] == b;
    } else {
      assert (a + "/" + b)[1..] == a[1..] + "/" + b;
      SplitSlashJoin(a[1..], b);
      assert [a[0]] + a[1..] == a;
    }
  }

  lemma {:induction false} SplitSlashPlain(a: string)
    requires '/' !in a
    ensures SplitSlash(a) == [a]
    decreases |a|
  {
    if |a| > 0 {
      SplitSlashPlain(a[1..]);
      assert [a[0]] + a[1..] == a;
    }
  }

  /** The canonical string splits into an empty head and the four numbers. */
  lemma SplitZfxyStr(t: ZFXY)
    ensures SplitSlash(ZfxyStr(t)) == ["", IntToString(t.z), IntToString(t.f), IntToString(t.x), IntToString(t.y)]
  {
    var z, f, x, y := IntToString(t.z), IntToString(t.f), IntToString(t.x), IntToString(t.y);
    assert ZfxyStr(t) == "" + "/" + (z + "/" + (f + "/" + (x + "/" + y)));
    SplitSlashPlain(y);
    SplitSlashJoin(x, y);
    SplitSlashJoin(f, x + "/" + y);
    SplitSlashJoin(z, f + "/" + (x + "/" + y));
    SplitSlashJoin("", z + "/" + (f + "/" + (x + "/" + y)));
  }

  /** Decoding the canonical string of a tile gives the tile back. */
  lemma ZfxyStrRoundTrip(t: ZFXY)
    ensures DecodeZfxyStr(ZfxyStr(t)) == Some(t)
  {
    SplitZfxyStr(t);
    IntRoundTrip(t.z);
    IntRoundTrip(t.f);
    IntRoundTrip(t.x);
    IntRoundTrip(t.y);
  }

  /** Distinct tiles have distinct canonical strings. */
  lemma ZfxyStrInjective(s: ZFXY, t: ZFXY)
    ensures ZfxyStr(s) == ZfxyStr(t) <==> s == t
  {
    ZfxyStrRoundTrip(s);
    ZfxyStrRoundTrip(t);
  }

  lemma RootZfxyStr()
    ensures ZfxyStr(ZFXY(0, 0, 0, 0)) == "/0/0/0/0"
  {
  }
}
